=== FILE: README.md ===
# sg: the search core, modelled in Dafny

`sg` is a syntax-aware grep. It parses source files with tree-sitter and then
does one of two things:

- it searches a literal pattern in the comments, string literals and
  identifiers of the tree;
- it runs a tree-sitter query and prints every matched node, with its captures
  highlighted.

This project models the pure logic around the parser. That logic covers:

- the literal matcher;
- the node classification and the work-stack walk of a word search;
- how the case policy and a query turn into a search mode;
- capture selection and the rendering of a structural match;
- choosing a grammar's entry symbol from a shared library's symbol table;
- the report printers with their `header_printed` and `first` flags.

Modules, one file each unless noted:

- `Wrappers`: `Option` and `Result`.
- `Chars`: characters as the search sees them. One `char` stands for one byte. Case mapping covers ASCII plus the Latin DZ-with-caron triple, which includes a titlecase letter.
- `Seqs`: sequence associativity for the proofs.
- `Config`: the run configuration `Cfg`.
- `Word` and `WordExamples` (`word.dfy`): `match_token`, `check_word_bounds`, `get_token_line_col`, and the unit tests of `src/search/word.rs`.
- `WordSearch`: the classification and tree walk of `search_file` in `src/search/word.rs`.
- `SearchMode`: `mk_search_mode` and `get_pat_sensitivity` (`src/main.rs`).
- `Report`: `print_header`, `print_file_path` and `print_line_number` (`src/report.rs`).
- `Captures`: capture selection and the stable sort in `run_query`.
- `Render`: the copy loops of `report_node_match`. It holds both the code as written and the corrected rendering.
- `RenderLaws`: what a rendering contains.
- `Query`: `report_node_match` and `run_query` over a file's matches.
- `Dynamic`: `find_lang_sym` and `load_parser` (`src/dynamic.rs`).

Output is a sequence of written strings. A panic (`expect`, `unwrap` of an
exhausted iterator, `todo!()`) is an `Option`'s `None` or an error value.
Parsing, query evaluation, ELF parsing and library loading become inputs. The
tree is a `Node` datatype. A query match is a sequence of captures. The symbol
table is a `seq<Option<string>>`. The loaded library is its set of exported
symbol names.

## Model

| member | source | states |
|---|---|---|
| Word.CheckWordBounds | src/search/word.rs:114-128 | A match is on word bounds iff the character before it is missing or not alphabetic, and the character after it is missing or not alphabetic. |
| Word.MatchIndicesLeftmost | src/search/word.rs:100-101 | `match_indices` yields the leftmost non-overlapping occurrences. Each entry is an occurrence, and each starts at or past the end of the previous one. Every occurrence it leaves out overlaps one it lists. |
| Word.LeftmostUnique | src/search/word.rs:100-111 | That description pins down a single list: two lists that both meet it are equal. |
| Word.MatchIndicesFit | src/search/word.rs:100-111 | The offsets found are strictly increasing, and each leaves room for the whole pattern in the token. |
| Word.FilterWordBounds | src/search/word.rs:102-111 | The whole-word filter keeps exactly the occurrences that pass `check_word_bounds`, in their order, so an ascending input stays ascending. |
| Word.WholeWordMatches | src/search/word.rs:100-111 | A whole-word search of a non-identifier yields exactly the `match_indices` offsets that stand on word bounds, ascending. |
| Word.MatchFolded | src/search/word.rs:94-111 | An identifier with whole-word matching gives `[0]` when the token equals the pattern and `[]` otherwise. Without whole-word matching it gives the leftmost non-overlapping occurrences. A whole-word search elsewhere gives exactly the occurrences on word bounds, ascending. |
| Word.MatchToken | src/search/word.rs:74-112 | A case-insensitive call needs a lowercase pattern, as the debug assertion demands. Case-sensitive matching compares the token as given; case-insensitive matching compares the token's lowercase form. |
| Word.CaseInsensitiveSeesLowercase | src/search/word.rs:86-90 | A case-insensitive search gives the same offsets for a token and for its lowercase form. |
| Word.GetTokenLineCol | src/search/word.rs:187-204 | The line delta counts the line feeds among the first `idx` characters. The column is `column0 + idx` when there is none, otherwise the number of steps after the last one. `idx = 0` gives `(0, column0)`. Steps past the token's end read nothing and still advance the column. |
| Word.ColumnZeroAfterNewline | src/search/word.rs:195-197 | The offset just after a line feed is at column zero. |
| Word.ColumnOnFirstLine | src/search/word.rs:198-200 | With no line feed before the offset, the column is the token's column plus the offset. |
| WordExamples.WordBoundsExamples | src/search/word.rs:207-218 | The ten `check_word_bounds` assertions of `test_word_bounds` hold. |
| WordExamples.IdentifierExamples | src/search/word.rs:223-226 | `test` in `test` gives `[0]`, as an identifier too. `Test` does not match the identifier `test` case-sensitively under whole-word matching, and matches `Test`. |
| WordExamples.WholeWordExamples | src/search/word.rs:229-236 | `test` in `just testing` gives `[5]`, and `[]` under whole-word matching. |
| WordExamples.TeyTeTey | src/search/word.rs:239-242 | The occurrences of `te` in `tey te tey` are `[0, 4, 7]`. |
| WordExamples.TeyTeTeyBounds | src/search/word.rs:243 | Of those three, only offset 4 stands on word bounds. |
| WordExamples.MultipleOccurrenceExamples | src/search/word.rs:239-243 | `match_token` gives `[0, 4, 7]` for `te` in `tey te tey`, and `[4]` under whole-word matching. |
| WordExamples.CaseSensitiveExample | src/search/word.rs:244 | A case-sensitive search of `Te` in `tey Te tey` gives `[4]`. |
| WordSearch.Classify | src/search/word.rs:31-37 | A node is a comment iff its kind is `block_comment` or `line_comment`. It is an identifier iff it is a non-comment leaf and identifier search is on. It is searched iff it is an enabled comment, an enabled `string_literal`, or an identifier. |
| WordSearch.IdentifiersAreLeaves | src/search/word.rs:36 | Only leaves are identifiers, and only with identifier search on; a comment never is. |
| WordSearch.NothingEnabledNothingSearched | src/search/word.rs:31-37 | With no node kind enabled, no node is searched. |
| WordSearch.LeafStringIsIdentifier | src/search/word.rs:34-37 | With identifier search on, a string literal without children is classified as an identifier. So a whole-word search compares the entire literal with the pattern. |
| WordSearch.PrunedVisitedAlone | src/search/word.rs:39-48 | When a searched node's text does not decode, its children are never pushed. Nothing below it is visited. |
| WordSearch.SearchFile | src/search/word.rs:23-71 | The matches reported are those of every searched node whose text decodes, node by node in the order the work stack visits them. |
| WordSearch.VisitOrderVisitsEachOnce | src/search/word.rs:23-70 | When every searched node decodes, the walk visits every node of the tree exactly once. |
| WordSearch.VisitOrderLength | src/search/word.rs:23-70 | When every searched node decodes, the walk takes one step per node of the tree. |
| WordSearch.VisitOrderIsReversedPostOrder | src/search/word.rs:67-70 | When every searched node decodes, the walk is the exact reverse of document post-order. A node comes before its descendants, and later siblings come before earlier ones. |
| SearchMode.PatSensitivityAsWritten | src/main.rs:64-73 | Smart casing is case-sensitive iff the pattern has an uppercase character, and keeps the pattern. Sensitive keeps it. Insensitive lowercases it and is case-insensitive. |
| SearchMode.SmartTitlecaseBreaksInvariant | src/main.rs:66 | For the pattern `ǅ` (U+01C5), Smart casing builds a case-insensitive `Pat` whose word is not lowercase. |
| SearchMode.PatSensitivity | src/main.rs:52 | With Smart corrected to lowercase when it picks insensitivity, every `Pat` satisfies the documented invariant. Smart keeps an uppercase-bearing pattern unchanged and case-sensitive, and lowercases any other pattern, matching it case-insensitively. Sensitive and Insensitive behave as above. |
| SearchMode.PatSensitivityAgreesWithoutTitlecase | src/main.rs:64-73 | For patterns without a titlecase character, the correction changes nothing. |
| SearchMode.MkSearchMode | src/main.rs:56-103 | It fails with the no-pattern error iff neither a pattern nor a query is given. A query takes precedence over a pattern. A literal query is compiled with ` @node` appended, and it fails when compilation fails. A named query is unsupported. A pattern alone gets the case policy as written, and the resulting `Pat` satisfies its invariant whenever the pattern has no titlecase character. |
| SearchMode.MkSearchModeTitlecase | src/main.rs:64-87 | Smart casing with the pattern `ǅ` builds a pattern mode whose `Pat` breaks the invariant. |
| SearchMode.QueryIgnoresPattern | src/main.rs:75-89 | When a query is given, the pattern has no effect on the result. |
| Report.PrintHeader | src/report.rs:7-34 | Without grouping, or once the file's header is out, nothing changes. Otherwise it writes a blank line (unless this is the run's first header), then the path and a line feed. It then marks the header printed and the run past its first header. |
| Report.PrintHeaderOnce | src/report.rs:14-32 | A second `print_header` for the same file writes nothing. |
| Report.FileHeadersOnce | src/report.rs:14-32 | With grouping, a file with any number of matches gets exactly the one header of its first match. |
| Report.RunHeadersJoined | src/report.rs:15-19 | Over a grouped run, the output is the file headers in order separated by single blank lines, with none before the first. `first` is cleared iff some file was reported. |
| Report.PrintFilePath | src/report.rs:37-51 | `path:` is written before a match only when not grouping. |
| Report.PathAnnouncedOnce | src/report.rs:7-51 | A file's first match announces the path exactly once. With grouping it is a header line, after a blank line unless first; otherwise it is a `path:` prefix. |
| Report.PrintLineNumber | src/report.rs:53-65 | One string is appended. Uncoloured, it is the number formatted with `{}` followed by a colon. That is decimal digits with no leading zero, except for the number 0, and the digits read back as the line number. |
| Report.DecimalRoundTrip | src/report.rs:63 | Reading a number's decimal formatting back gives the number. |
| Captures.SplitCaptures | src/search/query.rs:25-36 | A match without captures panics. Otherwise the first capture is the parent, and the others' ranges follow in order. |
| Captures.SortByStart | src/search/query.rs:37 | The sort result is ordered by start byte and is a permutation of its input. Ranges with equal start bytes keep their input order. |
| Captures.InsertStable | src/search/query.rs:37 | One insertion step puts the new range after every range with the same start byte. |
| Captures.SelectCaptures | src/search/query.rs:24-37 | `run_query` fails on a match without captures. Otherwise the parent is the first capture, and the highlights are the others' ranges, sorted by start byte. |
| Render.AdvanceAsWritten | src/search/query.rs:87-95 | One copy loop as written copies the characters up to `target`. It panics iff `target` is not strictly inside the remaining text. |
| Render.AsWrittenAgreesInside | src/search/query.rs:85-126 | For a parent at byte 0 whose captures end strictly inside its text, the renderer as written produces the corrected rendering. |
| Render.AsWrittenPanicsAtEnd | src/search/query.rs:103-104 | As written, any capture that ends at the end of the parent's text makes the renderer panic. |
| Render.AbsoluteOffsetsPanic | src/search/query.rs:87 | Example: the parent `f(x)` at bytes 10..14 with `x` captured at bytes 12..13. The capture fits the parent, yet the renderer as written panics. |
| Render.AbsoluteOffsetsMisplace | src/search/query.rs:87 | Example: the parent `abcdefghij` at bytes 5..15 with byte 7 captured. The intended rendering highlights the `c`. The renderer as written does not panic and highlights the `h`. |
| Render.CaptureAtEndPanics | src/search/query.rs:103 | A concrete capture that ends where its parent ends makes the renderer as written panic. |
| Render.CopyUpTo | src/search/query.rs:87-95 | A corrected copy loop stops exactly at the target file offset. What it produces is the copied characters, each line feed followed by the indentation. |
| Render.RenderCapture | src/search/query.rs:85-115 | One capture's pass produces exactly the rendering's next chunk: the text before it, the prefix, the captured text, the suffix. It also leaves the rest of the captures renderable from the capture's end. |
| Render.RenderNodeMatch | src/search/query.rs:82-126 | For captures that fit the parent, the corrected loops produce the marked-up parent text with the indentation after each line feed. They never panic. |
| RenderLaws.EraseMarkUp | src/search/query.rs:85-126 | The marked-up text holds exactly the parent's characters, in order. |
| RenderLaws.MarksMarkUp | src/search/query.rs:99-115 | With colour on, the prefixes and suffixes sit exactly at the start and end of each capture, relative to the parent. With colour off there are none. |
| RenderLaws.ExpandIndents | src/search/query.rs:90-94 | After indentation, exactly `indent` spaces follow each line feed and no others appear. Removing them gives the text back. |
| RenderLaws.RenderedMatch | src/search/query.rs:82-126 | Removing markers and indentation from a rendering gives the parent's text. With colour the markers are exactly the capture boundaries, and without colour there are none. Exactly `indent` spaces follow each line feed. |
| Query.UncoloredBody | src/search/query.rs:99-115 | Without colour, the printed node is its text with `indent` spaces after each line feed. |
| Query.ReportNodeMatch | src/search/query.rs:51-129 | A parent whose text does not decode writes nothing. Otherwise the call panics iff the highlights do not fit the parent. When it does not panic, it only appends, and its flags are those of `print_header`. What it appends is, in order: the header from `print_header`, the path from `print_file_path`, the row from `print_line_number`, and the rendered node as the last line. |
| Query.ReportNodeMatchLastLine | src/search/query.rs:75-129 | A parent whose text decodes and whose highlights fit adds at least one line, and the last line written is the rendered node. |
| Query.RunMatchesPanics | src/search/query.rs:24-48 | A file's matches panic iff one of them panics. |
| Query.RunMatchesHeaderOnce | src/search/query.rs:18 | With grouping, once a file's header is out, its further matches change no flag. |
| Query.RunQueryFacts | src/search/query.rs:9-49 | `run_query` on a file panics iff one of its matches does. Otherwise it only appends. The run leaves its first header iff grouping is on and some match's parent was printed. |
| Dynamic.EndsWithAny | src/dynamic.rs:63-70 | The suffix loop finds a suffix iff the name ends with one of them. |
| Dynamic.FirstLangSym | src/dynamic.rs:59-77 | Nothing is found iff no decodable entry has the prefix and none of the scanner suffixes. Otherwise the result with the prefix put back is the first such entry in table order. |
| Dynamic.FindLangSym | src/dynamic.rs:55-81 | Read and parse errors are passed on, and a non-ELF object has no language symbol. For an ELF object the result is the first qualifying dynamic symbol, in table order, as `Dynamic.FirstLangSym` characterises it. A name found is a table entry once the prefix is put back. |
| Dynamic.ResolveLangName | src/dynamic.rs:34-42 | A given name is used verbatim and the table is not consulted. Otherwise the found name is used, and `CantFindLangName` is the result when none is found. |
| Dynamic.LoadParserAsWritten | src/dynamic.rs:30-53 | `load_parser` succeeds iff the name resolves and the library exports that very name. A resolution error comes out unchanged, before the library is considered. A library load error comes out next. A name the library does not export fails the lookup. |
| Dynamic.InferredNameNotFound | src/dynamic.rs:73 | The table entry `tree_sitter_rust` resolves to `rust`. The lookup of `rust` then fails, although the library exports `tree_sitter_rust`. |
| Dynamic.EntrySymbol | src/dynamic.rs:34-42 | The looked-up symbol is a given name verbatim. Otherwise it is the name resolution found with the prefix put back, which is the first qualifying table entry in full. It fails iff name resolution fails. |
| Dynamic.LoadParser | src/dynamic.rs:30-53 | The corrected `load_parser` succeeds iff the entry symbol resolves and the library exports it. With a given name it behaves exactly as `Dynamic.LoadParserAsWritten`. Entry-symbol and library errors come out unchanged. |
| Dynamic.InferredNameLoads | src/dynamic.rs:44-50 | When the library exports its table's names, the corrected `load_parser` loads the first qualifying symbol. |

## Left out

- I/O is not modelled. This covers reading files, the directory walk (`walk_path`, and `search_file` in `src/main.rs`), `main`, `process::exit` and the messages on standard error. Written output is a sequence of strings.
- Tree-sitter is not modelled. Parsing, `Query::new` and the query cursor are inputs: a `Node` tree, a `compiles` predicate, and the list of matches with their captures' ranges, rows and decoded texts.
- `report_match` in `src/search/word.rs` is not modelled, because it only prints a found match. That covers slicing out the file line, printing the column and highlighting the match. `get_token_line_col`, which it calls, is modelled.
- goblin and libloading are not modelled. An ELF object is its dynamic-symbol name list. A library is its set of exported names. The language handle the entry function returns is modelled by the symbol's name.
- ANSI styles are reduced to their prefix and suffix strings.
- Unicode is a slice. One `char` is one byte, so byte offsets and character positions coincide. Case mapping and `is_alphabetic` cover ASCII and U+01C4–U+01C6, and lowercasing keeps the length.
- The code has no carriage-return handling and no byte-column counter. The model follows the code: only `'\n'` ends a line.
- Integers are unbounded. No offset or counter in these functions comes near `usize`'s width.
- The report functions take a writer argument that their callers do not pass. `report_node_match` also uses the unit result of `print_line_number` as the indentation. The model follows each function's own text: the printers append to the output sequence, and the indentation is a parameter.
- `report_node_match` prints the parent's 0-based `start_point.row` where the word search prints 1-based lines. This is modelled as written.
- `run_query`'s `Lazy` file lines are never read by `report_node_match` and are not modelled.
- `src/cli.rs` is not part of this model: it is argument parsing, and its `Args` fields do not match `main`'s. `build.rs` is not part of this model either: it is C compilation.
- The `load_parser` path that follows the entry symbol is out of scope. The model stops at the name being looked up.
- WordSearch.VisitOrderVisitsEachOnce: holds only when every searched node decodes. Otherwise the subtree below an undecodable node is skipped, as WordSearch.PrunedVisitedAlone states.
- WordSearch.VisitOrderIsReversedPostOrder: holds only when every searched node decodes, for the same reason.
- WordSearch.SearchFile: requires a lowercase pattern for case-insensitive search, because it calls Word.MatchToken, whose requires is the debug assertion at src/search/word.rs:83.
- Word.MatchToken: requires a lowercase pattern for case-insensitive calls, as the debug assertion at line 83 does. A release build runs on with such a pattern, which then matches nothing that was lowercased.
- Report.PrintLineNumber: the read-back of the number is stated only without colour; coloured output wraps it in opaque escapes.
- Captures.SelectCaptures: states order and permutation. Stability is stated by Captures.SortByStart, which it calls.
- Query.ReportNodeMatch: reads capture ranges relative to the parent, as the corrected renderer does, and treats the end of the parent's text as a stop (src/search/query.rs:103). The renderer as written is Render.LayoutAsWritten.

## Findings

| source | as written | input that shows it | evidently intended | confidence | as-written member | corrected member |
|---|---|---|---|---|---|---|
| src/main.rs:66 | Smart casing keeps the pattern unchanged and picks case-insensitive matching when no character is uppercase. | The pattern `ǅ` (U+01C5, titlecase). It is not uppercase, yet it lowercases to `ǆ`, so `Pat { word: "ǅ", case_sensitive: false }` breaks the invariant documented at line 52 and trips the debug assertion at src/search/word.rs:83. SearchMode.MkSearchModeTitlecase shows the same through `mk_search_mode`. | Lowercase the pattern whenever Smart picks case-insensitive matching. | high; not executed | SearchMode.SmartTitlecaseBreaksInvariant | SearchMode.PatSensitivity |
| src/search/query.rs:87 | The copy loops compare `char_indices` offsets, which count from the start of the parent's text, with capture ranges, which are file offsets. When the file offsets still fall inside the text, the loops do not panic but highlight the wrong characters (Render.AbsoluteOffsetsMisplace). | A parent `f(x)` at bytes 10..14 with `x` captured at bytes 12..13. The loop looks for offset 12 in a four-character text and unwraps `None`. | Subtract the parent's start byte from each range. | high; not executed | Render.AbsoluteOffsetsPanic | Render.RenderNodeMatch |
| src/search/query.rs:103 | `chars.peek().unwrap()` runs before testing for a capture that ends at the end of the parent's text. | A parent `f(x)` at bytes 0..4 with `(x)` captured at bytes 1..4. After the last character is copied, `peek()` is `None` and the unwrap panics. | Treat the end of the text as offset `len`. | high; not executed | Render.CaptureAtEndPanics | Render.RenderNodeMatch |
| src/dynamic.rs:73 | `find_lang_sym` strips the `tree_sitter_` prefix, and `load_parser` looks the stripped name up in the library (line 48). | A library whose only language symbol is `tree_sitter_rust`. The lookup is for `rust` and fails with a libloading error. | Look up the symbol with its prefix. | high; not executed | Dynamic.InferredNameNotFound | Dynamic.LoadParser |

=== FILE: captures.dfy ===
/**
 Capture selection in `run_query` (`src/search/query.rs`): the first
 capture of a match is the node shown, and the ranges of the others are
 sorted by start byte with a stable sort.
 */
module Captures {
  import opened Wrappers

  /** A node's byte range in the file, `[startByte, endByte)`. */
  datatype Range = Range(startByte: nat, endByte: nat)

  /**
   A captured node: its range, the row it starts on, and its text as
   `utf8_text` decodes it (`None` when it does not decode).
   */
  datatype Capture = Capture(range: Range, row: nat, text: Option<string>)

  /**
   The parent and the other ranges of one match. A match without captures
   makes the source's `expect` panic, modelled as `None`.
   */
  function SplitCaptures(caps: seq<Capture>): (r: Option<(Capture, seq<Range>)>)
    ensures r.None? <==> caps == []
    ensures r.Some? ==> r.value.0 == caps[0]
    ensures r.Some? ==> |r.value.1| == |caps| - 1
    ensures r.Some? ==> forall k :: 0 <= k < |caps| - 1 ==> r.value.1[k] == caps[k + 1].range
  {
    if caps == [] then None
    else Some((caps[0], seq(|caps| - 1, k requires 0 <= k < |caps| - 1 => caps[k + 1].range)))
  }

  /** Ranges in ascending order of start byte. */
  predicate SortedByStart(rs: seq<Range>)
  {
    forall j, k :: 0 <= j < k < |rs| ==> rs[j].startByte <= rs[k].startByte
  }

  /** The ranges of `rs` that start at `key`, in their order. */
  function WithStart(rs: seq<Range>, key: nat): seq<Range>
  {
    if rs == [] then []
    else WithStart(rs[..|rs| - 1], key) + (if rs[|rs| - 1].startByte == key then [rs[|rs| - 1]] else [])
  }

  /** `WithStart` of a concatenation. */
  lemma {:induction false} WithStartAppend(a: seq<Range>, b: seq<Range>, key: nat)
    ensures WithStart(a + b, key) == WithStart(a, key) + WithStart(b, key)
    decreases |b|
  {
    if b == [] {
      assert a + b == a;
    } else {
      assert (a + b)[..|a + b| - 1] == a + b[..|b| - 1];
      WithStartAppend(a, b[..|b| - 1], key);
    }
  }

  /**
   Inserts `x` into `rs` after the trailing ranges that start after it; in a
   sorted `rs` that is after every range starting at or before `x`, which is
   where a stable sort puts an element that came last.
   */
  function Insert(x: Range, rs: seq<Range>): (r: seq<Range>)
    ensures multiset(r) == multiset(rs) + multiset{x}
    decreases |rs|
  {
    if rs == [] || rs[|rs| - 1].startByte <= x.startByte then rs + [x]
    else
      assert rs == rs[..|rs| - 1] + [rs[|rs| - 1]];
      Insert(x, rs[..|rs| - 1]) + [rs[|rs| - 1]]
  }

  /** Inserting into a sorted sequence keeps it sorted. */
  lemma {:induction false} InsertSorted(x: Range, rs: seq<Range>)
    requires SortedByStart(rs)
    ensures SortedByStart(Insert(x, rs))
    decreases |rs|
  {
    if !(rs == [] || rs[|rs| - 1].startByte <= x.startByte) {
      var init := rs[..|rs| - 1];
      var last := rs[|rs| - 1];
      InsertSorted(x, init);
      var mid := Insert(x, init);
      var r := mid + [last];
      forall j, k | 0 <= j < k < |r|
        ensures r[j].startByte <= r[k].startByte
      {
        if k == |r| - 1 {
          assert r[j] in multiset(mid);
          assert r[j] in multiset(init) + multiset{x};
          if r[j] != x {
            assert r[j] in init;
          }
        }
      }
    }
  }

  /** Inserting adds `x` after the other ranges with its start byte. */
  lemma {:induction false} InsertStable(x: Range, rs: seq<Range>, key: nat)
    ensures WithStart(Insert(x, rs), key) == WithStart(rs, key) + (if x.startByte == key then [x] else [])
    decreases |rs|
  {
    var r := Insert(x, rs);
    if rs == [] || rs[|rs| - 1].startByte <= x.startByte {
      assert r[..|r| - 1] == rs;
    } else {
      var init := rs[..|rs| - 1];
      var last := rs[|rs| - 1];
      InsertStable(x, init, key);
      assert r[..|r| - 1] == Insert(x, init);
      assert rs[..|rs| - 1] == init;
      assert WithStart(r, key) == WithStart(Insert(x, init), key) + (if last.startByte == key then [last] else []);
      assert WithStart(rs, key) == WithStart(init, key) + (if last.startByte == key then [last] else []);
      assert !(last.startByte == key && x.startByte == key);
    }
  }

  /**
   `capture_ranges.sort_by_key(|range| range.start_byte)`: a stable sort,
   here an insertion sort. The result is ordered by start byte, holds the
   same ranges, and keeps ranges with equal start bytes in their input order.
   */
  function SortByStart(rs: seq<Range>): (r: seq<Range>)
    ensures SortedByStart(r)
    ensures multiset(r) == multiset(rs)
    ensures forall key :: WithStart(r, key) == WithStart(rs, key)
  {
    if rs == [] then []
    else
      var init := rs[..|rs| - 1];
      var sorted := SortByStart(init);
      InsertSorted(rs[|rs| - 1], sorted);
      assert rs == init + [rs[|rs| - 1]];
      assert forall key: nat :: WithStart(Insert(rs[|rs| - 1], sorted), key) == WithStart(rs, key) by {
        forall key: nat
          ensures WithStart(Insert(rs[|rs| - 1], sorted), key) == WithStart(rs, key)
        {
          InsertStable(rs[|rs| - 1], sorted, key);
        }
      }
      Insert(rs[|rs| - 1], sorted)
  }

  /** What `run_query` takes from one match: the parent capture and the sorted ranges of the others. */
  function SelectCaptures(caps: seq<Capture>): (r: Option<(Capture, seq<Range>)>)
    ensures r.None? <==> caps == []
    ensures r.Some? ==> r.value.0 == caps[0] && SortedByStart(r.value.1)
    ensures r.Some? ==> multiset(r.value.1) == multiset(SplitCaptures(caps).value.1)
  {
    match SplitCaptures(caps)
    case None => None
    case Some((parent, ranges)) => Some((parent, SortByStart(ranges)))
  }
}

=== FILE: chars.dfy ===
/**
 Characters and strings as the search sees them.

 One `char` stands for one byte of UTF-8 text, so byte offsets and character
 positions coincide. Rust's `char::is_uppercase`, `char::is_alphabetic` and
 `str::to_lowercase` are modelled on a small but faithful slice of Unicode:
 the ASCII letters plus the Latin DZ-with-caron triple, whose middle member
 U+01C5 is a *titlecase* letter (alphabetic, not uppercase, yet changed by
 lowercasing). Every other character is non-alphabetic and caseless.
 */
module Chars {

  /** U+01C4, LATIN CAPITAL LETTER DZ WITH CARON (uppercase). */
  const DzCapital: char := '\U{01C4}'
  /** U+01C5, LATIN CAPITAL LETTER D WITH SMALL LETTER Z WITH CARON (titlecase). */
  const DzTitle: char := '\U{01C5}'
  /** U+01C6, LATIN SMALL LETTER DZ WITH CARON (lowercase). */
  const DzSmall: char := '\U{01C6}'

  predicate IsAsciiUpper(c: char) { 'A' <= c <= 'Z' }

  predicate IsAsciiLower(c: char) { 'a' <= c <= 'z' }

  /** `char::is_uppercase`: the titlecase U+01C5 is not uppercase. */
  predicate IsUppercase(c: char) { IsAsciiUpper(c) || c == DzCapital }

  /** `char::is_alphabetic`. */
  predicate IsAlphabetic(c: char)
  {
    IsAsciiUpper(c) || IsAsciiLower(c) || c == DzCapital || c == DzTitle || c == DzSmall
  }

  /** `char::to_lowercase`, which maps each character of this slice to exactly one character. */
  function ToLower(c: char): char
  {
    if IsAsciiUpper(c) then (c as int + 32) as char
    else if c == DzCapital || c == DzTitle then DzSmall
    else c
  }

  /** `str::to_lowercase`, character by character. */
  function Lower(s: string): (r: string)
    ensures |r| == |s|
    ensures forall i :: 0 <= i < |s| ==> r[i] == ToLower(s[i])
  {
    seq(|s|, i requires 0 <= i < |s| => ToLower(s[i]))
  }

  /** `s.chars().any(char::is_uppercase)`. */
  predicate HasUppercase(s: string)
  {
    exists i :: 0 <= i < |s| && IsUppercase(s[i])
  }

  /** `str::starts_with`. */
  predicate StartsWith(s: string, prefix: string)
  {
    |prefix| <= |s| && s[..|prefix|] == prefix
  }

  /** `str::ends_with`. */
  predicate EndsWith(s: string, suffix: string)
  {
    |suffix| <= |s| && s[|s| - |suffix|..] == suffix
  }

  /** Lowering a character is idempotent, keeps it alphabetic or not, and leaves nothing uppercase. */
  lemma ToLowerFacts(c: char)
    ensures ToLower(ToLower(c)) == ToLower(c)
    ensures IsAlphabetic(ToLower(c)) <==> IsAlphabetic(c)
    ensures !IsUppercase(ToLower(c))
  {
  }

  /** Lowercasing a string twice is lowercasing it once. */
  lemma LowerIdempotent(s: string)
    ensures Lower(Lower(s)) == Lower(s)
  {
    forall i | 0 <= i < |s|
      ensures Lower(Lower(s))[i] == Lower(s)[i]
    {
      ToLowerFacts(s[i]);
    }
  }

  /** A character that is not uppercase is changed by lowercasing only if it is titlecase. */
  lemma ToLowerChangesOnlyCased(c: char)
    ensures ToLower(c) != c <==> IsUppercase(c) || c == DzTitle
  {
  }

  /** A string without uppercase or titlecase characters is already lowercase. */
  lemma LowerOfCaseless(s: string)
    requires !HasUppercase(s)
    requires forall i :: 0 <= i < |s| ==> s[i] != DzTitle
    ensures Lower(s) == s
  {
    forall i | 0 <= i < |s|
      ensures Lower(s)[i] == s[i]
    {
      ToLowerChangesOnlyCased(s[i]);
    }
  }
}

=== FILE: config.dfy ===
/** The run configuration shared by the search and the report printers. */
module Config {

  /** Which kinds of tree-sitter nodes a pattern is searched in. */
  datatype NodeKinds = NodeKinds(comment: bool, stringLiteral: bool, identifier: bool)

  /** An ANSI style, reduced to the escape strings written before and after the styled text. */
  datatype Style = Style(prefix: string, suffix: string)

  /**
   The search configuration: colouring, column printing, grouping by file,
   searched node kinds, whole-word matching and the three output styles.
   The parser handle and the file extension are not part of this model.
   */
  datatype Cfg = Cfg(
    color: bool,
    column: bool,
    group: bool,
    nodeKinds: NodeKinds,
    wholeWord: bool,
    filePathStyle: Style,
    lineNumStyle: Style,
    matchStyle: Style)
}

=== FILE: dynamic.dfy ===
/**
 Choosing the grammar entry point of a parser library (`src/dynamic.rs`):
 with no language name given, the library's dynamic symbol table is searched
 for the first `tree_sitter_*` symbol that is not one of the external scanner
 hooks, and the symbol is then looked up in the loaded library.

 Reading and parsing the file, and loading the library, are parameters: the
 parsed object (or the error reading or parsing it) and the set of symbols the
 loaded library exports (or the error loading it). The language handle the
 symbol's function returns is modelled by the symbol's name.
 */
module Dynamic {
  import opened Wrappers
  import opened Chars

  /** `TS_SYM_PREFIX`: every language symbol starts with this. */
  const TsSymPrefix: string := "tree_sitter_"

  /** `TS_SYM_SUFFIXES`: the external scanner hooks, which are not language symbols. */
  const TsSymSuffixes: seq<string> := [
    "external_scanner_create",
    "external_scanner_deserialize",
    "external_scanner_destroy",
    "external_scanner_reset",
    "external_scanner_scan",
    "external_scanner_serialize"
  ]

  /** `dynamic::Error`. */
  datatype Error = IO | Goblin | Libloading | CantFindLangName

  /**
   What `goblin::Object::parse` gives: an ELF object with the names of its
   dynamic symbols, in table order, as `dynstrtab.get` yields them (`None`
   when a name is missing or is not valid UTF-8), or some other kind of object.
   */
  datatype Object = Elf(dynsyms: seq<Option<string>>) | NotElf

  /** The inner loop over the suffixes: does `name` end with one of them? */
  function EndsWithAny(name: string, suffixes: seq<string>): (r: bool)
    ensures r <==> exists k :: 0 <= k < |suffixes| && EndsWith(name, suffixes[k])
    decreases |suffixes|
  {
    if suffixes == [] then false
    else
      assert forall k :: 0 < k < |suffixes| ==> suffixes[k] == suffixes[1..][k - 1];
      EndsWith(name, suffixes[0]) || EndsWithAny(name, suffixes[1..])
  }

  /** A symbol `find_lang_sym` accepts: the prefix and none of the scanner suffixes. */
  predicate IsLangSym(name: string)
  {
    StartsWith(name, TsSymPrefix) && !EndsWithAny(name, TsSymSuffixes)
  }

  /** A table entry that decodes to a language symbol. */
  predicate Qualifies(entry: Option<string>)
  {
    entry.Some? && IsLangSym(entry.value)
  }

  /**
   The loop over `elf.dynsyms`: the first qualifying entry, in table order,
   with the prefix stripped. Undecodable names are skipped.
   */
  function FirstLangSym(syms: seq<Option<string>>): (r: Option<string>)
    ensures r.None? <==> forall i :: 0 <= i < |syms| ==> !Qualifies(syms[i])
    ensures r.Some? ==>
              exists i :: 0 <= i < |syms| && syms[i] == Some(TsSymPrefix + r.value) && Qualifies(syms[i])
                          && forall j :: 0 <= j < i ==> !Qualifies(syms[j])
    decreases |syms|
  {
    if syms == [] then None
    else if Qualifies(syms[0]) then
      var name := syms[0].value;
      assert name == TsSymPrefix + name[|TsSymPrefix|..];
      Some(name[|TsSymPrefix|..])
    else
      var r := FirstLangSym(syms[1..]);
      assert forall i :: 0 < i < |syms| ==> syms[i] == syms[1..][i - 1];
      if r.Some? then
        var i :| 0 <= i < |syms[1..]| && syms[1..][i] == Some(TsSymPrefix + r.value) && Qualifies(syms[1..][i])
                 && forall j :: 0 <= j < i ==> !Qualifies(syms[1..][j]);
        assert syms[i + 1] == syms[1..][i];
        assert forall j :: 0 <= j < i + 1 ==> !Qualifies(syms[j]) by {
          forall j | 0 <= j < i + 1 ensures !Qualifies(syms[j]) {
            if j > 0 {
              assert syms[j] == syms[1..][j - 1];
            }
          }
        }
        r
      else r
  }

  /**
   `find_lang_sym`: errors reading or parsing the file are passed on; an
   object that is not ELF has no language symbol.
   */
  function FindLangSym(file: Result<Object, Error>): (r: Result<Option<string>, Error>)
    ensures file.Failure? ==> r == Failure(file.error)
    ensures file.Success? && file.value.NotElf? ==> r == Success(None)
    ensures file.Success? && file.value.Elf? ==> r == Success(FirstLangSym(file.value.dynsyms))
    ensures r.Success? && r.value.Some? ==>
              file.Success? && file.value.Elf? && Some(TsSymPrefix + r.value.value) in file.value.dynsyms
  {
    match file
    case Failure(e) => Failure(e)
    case Success(NotElf) => Success(None)
    case Success(Elf(syms)) => Success(FirstLangSym(syms))
  }

  /**
   The name-choice part of `load_parser`: a given name is used as is and
   the file is not read; otherwise the name `find_lang_sym` finds, and
   `CantFindLangName` when it finds none.
   */
  function ResolveLangName(file: Result<Object, Error>, langName: Option<string>): (r: Result<string, Error>)
    ensures langName.Some? ==> r == Success(langName.value)
    ensures langName.None? && file.Failure? ==> r == Failure(file.error)
    ensures langName.None? && FindLangSym(file) == Success(None) ==> r == Failure(CantFindLangName)
    ensures langName.None? && r.Success? ==> FindLangSym(file) == Success(Some(r.value))
    ensures langName.None? && FindLangSym(file).Success? && FindLangSym(file).value.Some?
            ==> r == Success(FindLangSym(file).value.value)
  {
    match langName
    case Some(name) => Success(name)
    case None =>
      match FindLangSym(file)
      case Failure(e) => Failure(e)
      case Success(None) => Failure(CantFindLangName)
      case Success(Some(name)) => Success(name)
  }

  /**
   `load_parser` as written: the chosen name, stripped of its prefix when it
   was found in the table, is looked up in the loaded library. The result is
   the symbol whose function gives the language.
   */
  function LoadParserAsWritten(file: Result<Object, Error>, library: Result<set<string>, Error>,
                               langName: Option<string>): (r: Result<string, Error>)
    ensures r.Success? <==> ResolveLangName(file, langName).Success? && library.Success?
                            && ResolveLangName(file, langName).value in library.value
    ensures r.Success? ==> ResolveLangName(file, langName) == Success(r.value)
    ensures ResolveLangName(file, langName).Failure? ==> r == Failure(ResolveLangName(file, langName).error)
    ensures ResolveLangName(file, langName).Success? && library.Failure? ==> r == Failure(library.error)
    ensures (ResolveLangName(file, langName).Success? && library.Success?
             && ResolveLangName(file, langName).value !in library.value) ==> r == Failure(Libloading)
  {
    match ResolveLangName(file, langName)
    case Failure(e) => Failure(e)
    case Success(name) =>
      match library
      case Failure(e) => Failure(e)
      case Success(exported) => if name in exported then Success(name) else Failure(Libloading)
  }

  /**
   A Rust grammar library whose only language symbol is `tree_sitter_rust`:
   the name is found, stripped to `rust`, and the lookup of `rust` fails,
   although the library exports the symbol the table named.
   */
  lemma InferredNameNotFound()
    ensures ResolveLangName(Success(Elf([Some("tree_sitter_rust")])), None) == Success("rust")
    ensures LoadParserAsWritten(Success(Elf([Some("tree_sitter_rust")])), Success({"tree_sitter_rust"}), None)
            == Failure(Libloading)
  {
    var name := "tree_sitter_rust";
    assert StartsWith(name, TsSymPrefix);
    assert !EndsWithAny(name, TsSymSuffixes) by {
      forall k | 0 <= k < |TsSymSuffixes| ensures !EndsWith(name, TsSymSuffixes[k]) {
        assert |TsSymSuffixes[k]| > |name|;
      }
    }
    assert FirstLangSym([Some(name)]) == Some("rust");
    assert "rust" != name;
  }

  /** The symbol `load_parser` looks up: a given name as is, a found one with its prefix put back. */
  function EntrySymbol(file: Result<Object, Error>, langName: Option<string>): (r: Result<string, Error>)
    ensures langName.Some? ==> r == Success(langName.value)
    ensures langName.None? && r.Success? ==>
              file.Success? && file.value.Elf? && Some(r.value) in file.value.dynsyms
              && IsLangSym(r.value)
    ensures langName.None? && r.Success? ==> r.value == TsSymPrefix + ResolveLangName(file, langName).value
    ensures r.Failure? <==> ResolveLangName(file, langName).Failure?
  {
    match ResolveLangName(file, langName)
    case Failure(e) => Failure(e)
    case Success(name) =>
      if langName.Some? then Success(name)
      else
        assert file.Success? && file.value.Elf?;
        var syms := file.value.dynsyms;
        assert FirstLangSym(syms) == Some(name);
        Success(TsSymPrefix + name)
  }

  /** `load_parser` looking up the symbol the table named. */
  function LoadParser(file: Result<Object, Error>, library: Result<set<string>, Error>,
                      langName: Option<string>): (r: Result<string, Error>)
    ensures r.Success? <==> EntrySymbol(file, langName).Success? && library.Success?
                            && EntrySymbol(file, langName).value in library.value
    ensures r.Success? ==> r == EntrySymbol(file, langName)
    ensures EntrySymbol(file, langName).Failure? ==> r == Failure(EntrySymbol(file, langName).error)
    ensures EntrySymbol(file, langName).Success? && library.Failure? ==> r == Failure(library.error)
    ensures langName.Some? ==> r == LoadParserAsWritten(file, library, langName)
  {
    match EntrySymbol(file, langName)
    case Failure(e) => Failure(e)
    case Success(symbol) =>
      match library
      case Failure(e) => Failure(e)
      case Success(exported) => if symbol in exported then Success(symbol) else Failure(Libloading)
  }

  /**
   When the library exports every decodable name of its symbol table, a
   language symbol found in the table is loaded: the first qualifying entry.
   */
  lemma InferredNameLoads(syms: seq<Option<string>>, exported: set<string>)
    requires forall i :: 0 <= i < |syms| && syms[i].Some? ==> syms[i].value in exported
    requires FirstLangSym(syms).Some?
    ensures LoadParser(Success(Elf(syms)), Success(exported), None)
            == Success(TsSymPrefix + FirstLangSym(syms).value)
  {
    var i :| 0 <= i < |syms| && syms[i] == Some(TsSymPrefix + FirstLangSym(syms).value) && Qualifies(syms[i])
             && forall j :: 0 <= j < i ==> !Qualifies(syms[j]);
    assert syms[i].value in exported;
  }
}

=== FILE: query.dfy ===
/**
 Structural search output (`src/search/query.rs`): `run_query` walks the
 matches of a query, takes the first capture of each as the node to show and
 the others as highlights, and `report_node_match` prints the header, path,
 line number and the node's text with the highlights.

 The matches the tree-sitter query cursor yields are a parameter. A panic
 (`expect`, `unwrap` on an exhausted iterator) is `None`.
 */
module Query {
  import opened Wrappers
  import opened Config
  import opened Report
  import opened Captures
  import opened Render
  import opened RenderLaws

  /** The node's text as written after the line number: the rendering in the match style's escapes. */
  function Body(cfg: Cfg, text: string, base: nat, rs: seq<Range>, indent: nat): string
    requires Fits(rs, base, base + |text|)
  {
    Show(Expand(MarkUp(text, base, rs, 0, cfg.color), indent), cfg.matchStyle.prefix, cfg.matchStyle.suffix)
  }

  /** The capture ranges fit the parent's text, so none of the copy loops runs out of characters. */
  predicate Renderable(parent: Capture, rs: seq<Range>)
    requires parent.text.Some?
  {
    Fits(rs, parent.range.startByte, parent.range.startByte + |parent.text.value|)
  }

  /** The header, path and line number written before a node's text. */
  function Preamble(cfg: Cfg, path: string, row: nat, flags: Flags, out: seq<string>): (r: seq<string>)
    ensures |r| > |out| && r[..|out|] == out
  {
    var o1 := PrintHeader(cfg, path, flags, out).1;
    var o2 := PrintFilePath(cfg, path, o1);
    assert o2[..|out|] == out;
    PrintLineNumber(cfg, row, o2)
  }

  /**
   `report_node_match` with capture ranges read relative to the parent. A
   parent whose text does not decode is skipped with a message on standard
   error; otherwise the header, the path, the parent's row and the rendered
   text are written. Ranges the copy loops cannot reach make them panic.
   */
  function ReportNodeMatch(cfg: Cfg, path: string, parent: Capture, rs: seq<Range>, indent: nat,
                           flags: Flags, out: seq<string>): (r: Option<(Flags, seq<string>)>)
    ensures parent.text.None? ==> r == Some((flags, out))
    ensures parent.text.Some? ==> (r.None? <==> !Renderable(parent, rs))
    ensures r.Some? ==> |r.value.1| >= |out| && r.value.1[..|out|] == out
    ensures r.Some? && parent.text.Some? ==> r.value.0 == PrintHeader(cfg, path, flags, out).0
    ensures r.Some? && parent.text.Some? ==>
              r.value.1 == PrintLineNumber(cfg, parent.row, PrintFilePath(cfg, path, PrintHeader(cfg, path, flags, out).1))
                           + [Body(cfg, parent.text.value, parent.range.startByte, rs, indent) + "\n"]
  {
    match parent.text
    case None => Some((flags, out))
    case Some(text) =>
      if !Fits(rs, parent.range.startByte, parent.range.startByte + |text|) then None
      else
        var o3 := Preamble(cfg, path, parent.row, flags, out);
        var last := Body(cfg, text, parent.range.startByte, rs, indent) + "\n";
        assert (o3 + [last])[..|out|] == out;
        Some((PrintHeader(cfg, path, flags, out).0, o3 + [last]))
  }

  /** A printed node match adds at least one line, and its last line is the rendered node. */
  lemma ReportNodeMatchLastLine(cfg: Cfg, path: string, parent: Capture, rs: seq<Range>, indent: nat,
                                flags: Flags, out: seq<string>)
    requires parent.text.Some? && Renderable(parent, rs)
    ensures var r := ReportNodeMatch(cfg, path, parent, rs, indent, flags, out);
            r.Some? && |r.value.1| > |out|
            && r.value.1[|r.value.1| - 1] == Body(cfg, parent.text.value, parent.range.startByte, rs, indent) + "\n"
  {
  }

  /** A match makes `run_query` panic: it has no capture, or its highlights cannot be rendered. */
  predicate Panics(m: seq<Capture>)
  {
    m == [] || (m[0].text.Some? && !Renderable(m[0], SortByStart(SplitCaptures(m).value.1)))
  }

  /** A match whose parent node is printed. */
  predicate Shown(m: seq<Capture>)
  {
    m != [] && m[0].text.Some?
  }

  /** The matches of one file from `flags` on, as `run_query`'s loop handles them. */
  function RunMatches(cfg: Cfg, path: string, matches: seq<seq<Capture>>, indent: nat,
                      flags: Flags, out: seq<string>): Option<(Flags, seq<string>)>
    decreases |matches|
  {
    if matches == [] then Some((flags, out))
    else
      match SelectCaptures(matches[0])
      case None => None
      case Some((parent, rs)) =>
        match ReportNodeMatch(cfg, path, parent, rs, indent, flags, out)
        case None => None
        case Some((f, o)) => RunMatches(cfg, path, matches[1..], indent, f, o)
  }

  /**
   `run_query` on one file: starts with no header printed for the file, and
   gives back the run's `first` flag and the output.
   */
  function RunQuery(cfg: Cfg, path: string, matches: seq<seq<Capture>>, indent: nat,
                    first: bool, out: seq<string>): Option<(bool, seq<string>)>
  {
    match RunMatches(cfg, path, matches, indent, Flags(false, first), out)
    case None => None
    case Some((f, o)) => Some((f.first, o))
  }

  /** Some match of the list panics. */
  predicate SomePanics(matches: seq<seq<Capture>>)
    decreases |matches|
  {
    matches != [] && (Panics(matches[0]) || SomePanics(matches[1..]))
  }

  /** Some match of the list has its parent printed. */
  predicate SomeShown(matches: seq<seq<Capture>>)
    decreases |matches|
  {
    matches != [] && (Shown(matches[0]) || SomeShown(matches[1..]))
  }

  /** `RunMatches` on a first match that has captures, unfolded once. */
  lemma RunMatchesCons(cfg: Cfg, path: string, matches: seq<seq<Capture>>, indent: nat,
                       flags: Flags, out: seq<string>, parent: Capture, rs: seq<Range>)
    requires matches != [] && matches[0] != []
    requires parent == matches[0][0] && rs == SortByStart(SplitCaptures(matches[0]).value.1)
    ensures RunMatches(cfg, path, matches, indent, flags, out)
            == match ReportNodeMatch(cfg, path, parent, rs, indent, flags, out)
               case None => None
               case Some((f, o)) => RunMatches(cfg, path, matches[1..], indent, f, o)
  {
    assert SelectCaptures(matches[0]) == Some((parent, rs));
  }

  /** The run panics exactly when one of its matches does. */
  lemma {:induction false} RunMatchesPanics(cfg: Cfg, path: string, matches: seq<seq<Capture>>, indent: nat,
                                            flags: Flags, out: seq<string>)
    ensures RunMatches(cfg, path, matches, indent, flags, out).None? <==> SomePanics(matches)
    decreases |matches|
  {
    if matches != [] && matches[0] != [] {
      var parent := matches[0][0];
      var rs := SortByStart(SplitCaptures(matches[0]).value.1);
      RunMatchesCons(cfg, path, matches, indent, flags, out, parent, rs);
      match ReportNodeMatch(cfg, path, parent, rs, indent, flags, out)
      case None =>
      case Some((f, o)) =>
        RunMatchesPanics(cfg, path, matches[1..], indent, f, o);
    }
  }

  /** The run only appends to the output. */
  lemma {:induction false} RunMatchesAppends(cfg: Cfg, path: string, matches: seq<seq<Capture>>, indent: nat,
                                             flags: Flags, out: seq<string>, r: Option<(Flags, seq<string>)>)
    requires r == RunMatches(cfg, path, matches, indent, flags, out)
    ensures r.Some? ==> |r.value.1| >= |out| && r.value.1[..|out|] == out
    decreases |matches|
  {
    if matches != [] && matches[0] != [] {
      var parent := matches[0][0];
      var rs := SortByStart(SplitCaptures(matches[0]).value.1);
      RunMatchesCons(cfg, path, matches, indent, flags, out, parent, rs);
      match ReportNodeMatch(cfg, path, parent, rs, indent, flags, out)
      case None =>
      case Some((f, o)) =>
        RunMatchesAppends(cfg, path, matches[1..], indent, f, o, r);
        if r.Some? {
          assert r.value.1[..|out|] == r.value.1[..|o|][..|out|];
        }
    }
  }

  /** Once a shown match has been printed with grouping on, the run is no longer at its first header. */
  lemma {:induction false} RunMatchesFirst(cfg: Cfg, path: string, matches: seq<seq<Capture>>, indent: nat,
                                           flags: Flags, out: seq<string>, r: Option<(Flags, seq<string>)>)
    requires r == RunMatches(cfg, path, matches, indent, flags, out)
    requires flags.headerPrinted ==> !flags.first
    ensures r.Some? ==> r.value.0.first == (flags.first && !(cfg.group && SomeShown(matches)))
    decreases |matches|
  {
    if matches != [] && matches[0] != [] {
      var parent := matches[0][0];
      var rs := SortByStart(SplitCaptures(matches[0]).value.1);
      RunMatchesCons(cfg, path, matches, indent, flags, out, parent, rs);
      match ReportNodeMatch(cfg, path, parent, rs, indent, flags, out)
      case None =>
      case Some((f, o)) =>
        RunMatchesFirst(cfg, path, matches[1..], indent, f, o, r);
    }
  }

  /** With grouping on, a file whose header is out writes no other header. */
  lemma {:induction false} RunMatchesHeaderOnce(cfg: Cfg, path: string, matches: seq<seq<Capture>>, indent: nat,
                                                flags: Flags, out: seq<string>)
    requires cfg.group && flags.headerPrinted
    ensures RunMatches(cfg, path, matches, indent, flags, out).Some?
            ==> RunMatches(cfg, path, matches, indent, flags, out).value.0 == flags
    decreases |matches|
  {
    if matches != [] && matches[0] != [] {
      var parent := matches[0][0];
      var rs := SortByStart(SplitCaptures(matches[0]).value.1);
      RunMatchesCons(cfg, path, matches, indent, flags, out, parent, rs);
      match ReportNodeMatch(cfg, path, parent, rs, indent, flags, out)
      case None =>
      case Some((f, o)) =>
        RunMatchesHeaderOnce(cfg, path, matches[1..], indent, f, o);
    }
  }

  /**
   `run_query` on one file panics exactly when one of its matches does;
   otherwise it appends to the output, and the run stays at its first
   header unless grouping is on and some match's parent was printed.
   */
  lemma RunQueryFacts(cfg: Cfg, path: string, matches: seq<seq<Capture>>, indent: nat,
                      first: bool, out: seq<string>, r: Option<(bool, seq<string>)>)
    requires r == RunQuery(cfg, path, matches, indent, first, out)
    ensures r.None? <==> SomePanics(matches)
    ensures r.Some? ==> |r.value.1| >= |out| && r.value.1[..|out|] == out
    ensures r.Some? ==> r.value.0 == (first && !(cfg.group && SomeShown(matches)))
  {
    var m := RunMatches(cfg, path, matches, indent, Flags(false, first), out);
    RunMatchesPanics(cfg, path, matches, indent, Flags(false, first), out);
    RunMatchesAppends(cfg, path, matches, indent, Flags(false, first), out, m);
    RunMatchesFirst(cfg, path, matches, indent, Flags(false, first), out, m);
  }

  /** With colour off, the text after the line number is the parent's text indented after each line feed. */
  function IndentLines(s: string, indent: nat): string
  {
    if s == [] then []
    else (if s[0] == '\n' then "\n" + seq(indent, _ => ' ') else [s[0]]) + IndentLines(s[1..], indent)
  }

  lemma {:induction false} MarkUpUncolored(text: string, base: nat, rs: seq<Range>, pos: nat)
    requires pos <= |text|
    requires Fits(rs, base + pos, base + |text|)
    ensures MarkUp(text, base, rs, pos, false) == Plain(text[pos..])
    decreases |rs|
  {
    if rs != [] {
      assert rs[0].startByte >= base;
      var s: nat, e: nat := rs[0].startByte - base, rs[0].endByte - base;
      MarkUpCons(text, base, rs, pos, false, s, e);
      MarkUpUncolored(text, base, rs[1..], e);
      PlainAppend3(text[pos..s], text[s..e], text[e..]);
      SplitAt(text, pos, s, e);
    }
  }

  lemma PlainAppend3(x: string, y: string, z: string)
    ensures Plain(x) + [] + Plain(y) + [] + Plain(z) == Plain(x + y + z)
  {
    PlainAppend(x + y, z);
    PlainAppend(x, y);
  }

  lemma ShowPads(n: nat, prefix: string, suffix: string)
    ensures Show(Pads(n), prefix, suffix) == seq(n, _ => ' ')
  {
    if n > 0 {
      assert Pads(n)[1..] == Pads(n - 1);
      ShowPads(n - 1, prefix, suffix);
    }
  }

  lemma {:induction false} ShowAppend(a: seq<Piece>, b: seq<Piece>, prefix: string, suffix: string)
    ensures Show(a + b, prefix, suffix) == Show(a, prefix, suffix) + Show(b, prefix, suffix)
    decreases |a|
  {
    if a == [] {
      assert a + b == b;
    } else {
      assert (a + b)[1..] == a[1..] + b;
      ShowAppend(a[1..], b, prefix, suffix);
    }
  }

  lemma {:induction false} ShowExpandPlain(s: string, indent: nat, prefix: string, suffix: string)
    ensures Show(Expand(Plain(s), indent), prefix, suffix) == IndentLines(s, indent)
    decreases |s|
  {
    if s != [] {
      var head := Indent(Text(s[0]), indent);
      assert Expand(Plain(s), indent) == head + Expand(Plain(s[1..]), indent);
      ShowAppend(head, Expand(Plain(s[1..]), indent), prefix, suffix);
      ShowExpandPlain(s[1..], indent, prefix, suffix);
      if s[0] == '\n' {
        ShowAppend([Text('\n')], Pads(indent), prefix, suffix);
        ShowPads(indent, prefix, suffix);
      }
    }
  }

  /** Without colour, the rendering is the parent's text with `indent` spaces after each line feed. */
  lemma UncoloredBody(cfg: Cfg, text: string, base: nat, rs: seq<Range>, indent: nat)
    requires !cfg.color
    requires Fits(rs, base, base + |text|)
    ensures Body(cfg, text, base, rs, indent) == IndentLines(text, indent)
  {
    MarkUpUncolored(text, base, rs, 0);
    assert text[0..] == text;
    ShowExpandPlain(text, indent, cfg.matchStyle.prefix, cfg.matchStyle.suffix);
  }
}

=== FILE: render.dfy ===
/**
 Rendering a structural match in `report_node_match`
 (`src/search/query.rs`): the parent node's text is copied with highlight
 markers around each capture range, and every copied line feed is followed
 by the indentation.

 The rendered string is modelled as a sequence of pieces: a copied
 character, a highlight prefix or suffix, or one space of indentation.
 `Show` turns pieces into the characters written.
 */
module Render {
  import opened Wrappers
  import opened Captures

  /** One piece of rendered output. */
  datatype Piece = Text(c: char) | Open | Close | Pad

  /** The characters a sequence of pieces stands for, given the highlight escapes. */
  function Show(ps: seq<Piece>, prefix: string, suffix: string): string
  {
    if ps == [] then []
    else
      var head := match ps[0]
        case Text(c) => [c]
        case Open => prefix
        case Close => suffix
        case Pad => " ";
      head + Show(ps[1..], prefix, suffix)
  }

  /** `n` spaces of indentation. */
  function Pads(n: nat): (r: seq<Piece>)
    ensures |r| == n && forall i :: 0 <= i < n ==> r[i] == Pad
  {
    seq(n, _ => Pad)
  }

  /** The pieces pushed for one copied character: the character, and the indentation after a line feed. */
  function Emit(c: char, indent: nat): seq<Piece>
  {
    if c == '\n' then [Text(c)] + Pads(indent) else [Text(c)]
  }

  /** Characters as unindented, unmarked pieces. */
  function Plain(s: string): (r: seq<Piece>)
    ensures |r| == |s|
  {
    if s == [] then [] else [Text(s[0])] + Plain(s[1..])
  }

  /** A highlight marker, written only when colour is on. */
  function Marker(p: Piece, color: bool): seq<Piece>
  {
    if color then [p] else []
  }

  /** One piece with its indentation: a copied character as `Emit` pushes it, a marker as is. */
  function Indent(p: Piece, indent: nat): seq<Piece>
  {
    if p.Text? then Emit(p.c, indent) else [p]
  }

  /** Adds the indentation after every line feed. */
  function Expand(ps: seq<Piece>, indent: nat): seq<Piece>
  {
    if ps == [] then [] else Indent(ps[0], indent) + Expand(ps[1..], indent)
  }

  /**
   Capture ranges that the renderer can walk: each starts at or after the
   previous one's end (the first at or after `from`), and none ends after
   `limit`.
   */
  predicate Fits(rs: seq<Range>, from: nat, limit: nat)
    decreases |rs|
  {
    rs == [] ||
    (from <= rs[0].startByte <= rs[0].endByte <= limit && Fits(rs[1..], rs[0].endByte, limit))
  }

  /** Where the first capture starts, relative to a parent starting at file offset `base`. */
  function Start(rs: seq<Range>, base: nat): int
    requires rs != []
  {
    rs[0].startByte - base
  }

  /** Where the first capture ends, relative to a parent starting at file offset `base`. */
  function End(rs: seq<Range>, base: nat): int
    requires rs != []
  {
    rs[0].endByte - base
  }

  /**
   The parent text from offset `pos` with markers around each capture. The
   parent starts at file offset `base`; capture ranges are file offsets.
   */
  function MarkUp(text: string, base: nat, rs: seq<Range>, pos: nat, color: bool): seq<Piece>
    requires pos <= |text|
    requires Fits(rs, base + pos, base + |text|)
    decreases |rs|
  {
    if rs == [] then Plain(text[pos..])
    else
      var s := Start(rs, base);
      var e := End(rs, base);
      Plain(text[pos..s]) + Marker(Open, color) + Plain(text[s..e]) + Marker(Close, color)
      + MarkUp(text, base, rs[1..], e, color)
  }

  /** `MarkUp` on a nonempty capture list, unfolded once. */
  lemma MarkUpCons(text: string, base: nat, rs: seq<Range>, pos: nat, color: bool, s: nat, e: nat)
    requires pos <= |text|
    requires Fits(rs, base + pos, base + |text|)
    requires rs != [] && s == Start(rs, base) && e == End(rs, base)
    ensures pos <= s <= e <= |text|
    ensures Fits(rs[1..], base + e, base + |text|)
    ensures MarkUp(text, base, rs, pos, color)
            == Plain(text[pos..s]) + Marker(Open, color) + Plain(text[s..e]) + Marker(Close, color)
               + MarkUp(text, base, rs[1..], e, color)
  {
  }

  // ---------------------------------------------------------------------------
  // The renderer as written: it compares offsets relative to the parent text
  // with the capture ranges as given, and unwraps `peek()` before comparing.
  // ---------------------------------------------------------------------------

  /**
   One `while chars.peek().unwrap().0 != target` loop: copies characters
   from `pos` up to `target`. Running out of characters panics (`None`),
   including when `target` is the end of the text.
   */
  function AdvanceAsWritten(text: string, pos: nat, target: nat, indent: nat): (r: Option<(seq<Piece>, nat)>)
    ensures r.Some? ==> pos <= target < |text| && r.value == (Expand(Plain(text[pos..target]), indent), target)
    ensures r.None? <==> !(pos <= target < |text|)
    decreases |text| - pos
  {
    if pos >= |text| then None
    else if pos == target then
      assert text[pos..target] == [];
      Some(([], pos))
    else
      match AdvanceAsWritten(text, pos + 1, target, indent)
      case None => None
      case Some((o, p)) =>
        assert Plain(text[pos..target]) == [Text(text[pos])] + Plain(text[pos + 1..target]);
        Some((Emit(text[pos], indent) + o, p))
  }

  /** The three copy loops of `report_node_match` as written, from offset `pos`; `None` is a panic. */
  function LayoutAsWritten(text: string, rs: seq<Range>, pos: nat, color: bool, indent: nat): Option<seq<Piece>>
    requires pos <= |text|
    decreases |rs|
  {
    if rs == [] then Some(Expand(Plain(text[pos..]), indent))
    else match AdvanceAsWritten(text, pos, rs[0].startByte, indent)
      case None => None
      case Some((before, p1)) =>
        match AdvanceAsWritten(text, p1, rs[0].endByte, indent)
        case None => None
        case Some((inside, p2)) =>
          match LayoutAsWritten(text, rs[1..], p2, color, indent)
          case None => None
          case Some(rest) => Some(before + Marker(Open, color) + inside + Marker(Close, color) + rest)
  }

  /** `Expand` distributes over concatenation. */
  lemma {:induction false} ExpandAppend(a: seq<Piece>, b: seq<Piece>, indent: nat)
    ensures Expand(a + b, indent) == Expand(a, indent) + Expand(b, indent)
    decreases |a|
  {
    if a == [] {
      assert a + b == b;
    } else {
      assert (a + b)[1..] == a[1..] + b;
      ExpandAppend(a[1..], b, indent);
    }
  }

  /** Markers are not indented. */
  lemma ExpandMarker(p: Piece, color: bool, indent: nat)
    requires !p.Text?
    ensures Expand(Marker(p, color), indent) == Marker(p, color)
  {
    if color {
      assert [p][1..] == [];
    }
  }

  /** `Expand` of five concatenated parts. */
  lemma ExpandAppend5(a: seq<Piece>, b: seq<Piece>, c: seq<Piece>, d: seq<Piece>, t: seq<Piece>, indent: nat)
    ensures Expand(a + b + c + d + t, indent)
            == Expand(a, indent) + Expand(b, indent) + Expand(c, indent) + Expand(d, indent) + Expand(t, indent)
  {
    ExpandAppend(a + b + c + d, t, indent);
    ExpandAppend(a + b + c, d, indent);
    ExpandAppend(a + b, c, indent);
    ExpandAppend(a, b, indent);
  }

  /** Indenting the marked-up text one capture at a time. */
  lemma ExpandMarkUpStep(text: string, base: nat, rs: seq<Range>, pos: nat, color: bool, indent: nat, s: nat, e: nat)
    requires pos <= |text|
    requires Fits(rs, base + pos, base + |text|)
    requires rs != [] && s == Start(rs, base) && e == End(rs, base)
    ensures pos <= s <= e <= |text|
    ensures Fits(rs[1..], base + e, base + |text|)
    ensures Expand(MarkUp(text, base, rs, pos, color), indent)
            == Expand(Plain(text[pos..s]), indent) + Marker(Open, color) + Expand(Plain(text[s..e]), indent)
               + Marker(Close, color) + Expand(MarkUp(text, base, rs[1..], e, color), indent)
  {
    MarkUpCons(text, base, rs, pos, color, s, e);
    ExpandAppend5(Plain(text[pos..s]), Marker(Open, color), Plain(text[s..e]), Marker(Close, color),
                  MarkUp(text, base, rs[1..], e, color), indent);
    ExpandMarker(Open, color, indent);
    ExpandMarker(Close, color, indent);
  }

  /** After the last capture, the rest of the text is copied unmarked. */
  lemma MarkUpRest(text: string, base: nat, rs: seq<Range>, pos: nat, color: bool)
    requires pos <= |text|
    requires rs == []
    ensures Fits(rs, base + pos, base + |text|)
    ensures MarkUp(text, base, rs, pos, color) == Plain(text[pos..|text|])
  {
    assert text[pos..] == text[pos..|text|];
  }

  /** Every range ends before offset `n`. */
  predicate EndsBefore(rs: seq<Range>, n: nat)
    decreases |rs|
  {
    rs == [] || (rs[0].endByte < n && EndsBefore(rs[1..], n))
  }

  /** One capture of the renderer as written, when it does not panic. */
  lemma LayoutAsWrittenStep(text: string, rs: seq<Range>, pos: nat, color: bool, indent: nat, s: nat, e: nat)
    requires pos <= |text|
    requires rs != [] && s == rs[0].startByte && e == rs[0].endByte && pos <= s <= e < |text|
    ensures LayoutAsWritten(text, rs, pos, color, indent)
            == match LayoutAsWritten(text, rs[1..], e, color, indent)
               case None => None
               case Some(rest) =>
                 Some(Expand(Plain(text[pos..s]), indent) + Marker(Open, color) + Expand(Plain(text[s..e]), indent)
                      + Marker(Close, color) + rest)
  {
  }

  /**
   On ranges that fit a parent starting at byte 0 of the file and that end
   strictly inside its text, the renderer as written agrees with the
   intended rendering.
   */
  lemma {:induction false} AsWrittenAgreesInside(text: string, rs: seq<Range>, pos: nat, color: bool, indent: nat)
    requires pos <= |text|
    requires Fits(rs, pos, |text|)
    requires EndsBefore(rs, |text|)
    ensures LayoutAsWritten(text, rs, pos, color, indent) == Some(Expand(MarkUp(text, 0, rs, pos, color), indent))
    decreases |rs|
  {
    if rs != [] {
      var s, e := rs[0].startByte, rs[0].endByte;
      AsWrittenAgreesInside(text, rs[1..], e, color, indent);
      ExpandMarkUpStep(text, 0, rs, pos, color, indent, s, e);
      LayoutAsWrittenStep(text, rs, pos, color, indent, s, e);
    }
  }

  /** A capture ending at the parent's last byte makes the renderer as written panic. */
  lemma {:induction false} AsWrittenPanicsAtEnd(text: string, rs: seq<Range>, pos: nat, color: bool, indent: nat)
    requires pos <= |text|
    requires Fits(rs, pos, |text|)
    requires exists k :: 0 <= k < |rs| && rs[k].endByte == |text|
    ensures LayoutAsWritten(text, rs, pos, color, indent) == None
    decreases |rs|
  {
    var s := rs[0].startByte;
    var e := rs[0].endByte;
    if e < |text| {
      var k :| 0 <= k < |rs| && rs[k].endByte == |text|;
      assert k != 0;
      assert rs[1..][k - 1] == rs[k];
      AsWrittenPanicsAtEnd(text, rs[1..], e, color, indent);
    }
  }

  /**
   A parent node that does not start at byte 0 of the file: the call
   `f(x)` at bytes 10..14 with its argument `x` captured at bytes 12..13.
   The renderer as written looks for offset 12 inside the four-character
   text and panics; the range is well formed for the parent.
   */
  lemma AbsoluteOffsetsPanic()
    ensures Fits([Range(12, 13)], 10, 14)
    ensures LayoutAsWritten("f(x)", [Range(12, 13)], 0, true, 0) == None
  {
  }

  /** With no indentation, indenting changes nothing. */
  lemma {:induction false} ExpandNoIndent(ps: seq<Piece>)
    ensures Expand(ps, 0) == ps
    decreases |ps|
  {
    if ps != [] {
      ExpandNoIndent(ps[1..]);
      assert Indent(ps[0], 0) == [ps[0]];
      assert ps == [ps[0]] + ps[1..];
    }
  }

  /** The intended rendering of a parent `abcdefghij` at bytes 5..15 with byte 7 captured: its `c` is highlighted. */
  lemma MisplaceIntended(t: string)
    requires t == "abcdefghij"
    ensures Fits([Range(7, 8)], 5, 15)
    ensures MarkUp(t, 5, [Range(7, 8)], 0, true) == Plain("ab") + [Open] + Plain("c") + [Close] + Plain("defghij")
  {
    var rs := [Range(7, 8)];
    assert rs[1..] == [];
    MarkUpCons(t, 5, rs, 0, true, 2, 3);
    MarkUpRest(t, 5, rs[1..], 3, true);
    assert t[0..2] == "ab" && t[2..3] == "c" && t[3..|t|] == "defghij";
  }

  /** The renderer as written on the same parent and capture: it highlights the `h`. */
  lemma MisplaceAsWritten(t: string)
    requires t == "abcdefghij"
    ensures LayoutAsWritten(t, [Range(7, 8)], 0, true, 0)
            == Some(Plain("abcdefg") + [Open] + Plain("h") + [Close] + Plain("ij"))
  {
    var rs := [Range(7, 8)];
    assert rs[1..] == [];
    LayoutAsWrittenStep(t, rs, 0, true, 0, 7, 8);
    assert t[0..7] == "abcdefg" && t[7..8] == "h" && t[8..] == "ij";
    ExpandNoIndent(Plain("abcdefg"));
    ExpandNoIndent(Plain("h"));
    ExpandNoIndent(Plain("ij"));
  }

  /**
   A parent `abcdefghij` at bytes 5..15 with the byte 7 (its `c`) captured.
   The renderer as written does not panic: it reads the file offset 7 as an
   offset into the text and highlights the `h` instead of the `c`.
   */
  lemma AbsoluteOffsetsMisplace()
    ensures Fits([Range(7, 8)], 5, 15)
    ensures MarkUp("abcdefghij", 5, [Range(7, 8)], 0, true)
            == Plain("ab") + [Open] + Plain("c") + [Close] + Plain("defghij")
    ensures LayoutAsWritten("abcdefghij", [Range(7, 8)], 0, true, 0)
            == Some(Plain("abcdefg") + [Open] + Plain("h") + [Close] + Plain("ij"))
  {
    MisplaceIntended("abcdefghij");
    MisplaceAsWritten("abcdefghij");
  }

  /**
   A capture that ends where its parent ends: the call `f(x)` at the start
   of the file with its argument list `(x)` captured at bytes 1..4. The
   renderer as written unwraps an exhausted iterator and panics.
   */
  lemma CaptureAtEndPanics()
    ensures Fits([Range(1, 4)], 0, 4)
    ensures LayoutAsWritten("f(x)", [Range(1, 4)], 0, true, 0) == None
  {
    AsWrittenPanicsAtEnd("f(x)", [Range(1, 4)], 0, true, 0);
  }
  // ---------------------------------------------------------------------------
  // The renderer with the offsets of the parent taken into account and the end
  // of the text treated as offset |text|.
  // ---------------------------------------------------------------------------

  /** `Plain` distributes over concatenation. */
  lemma {:induction false} PlainAppend(x: string, y: string)
    ensures Plain(x + y) == Plain(x) + Plain(y)
    decreases |x|
  {
    if x == [] {
      assert x + y == y;
    } else {
      assert (x + y)[1..] == x[1..] + y;
      PlainAppend(x[1..], y);
    }
  }

  /** Copying one more character of plain text. */
  lemma ExpandPlainSnoc(text: string, pos: nat, next: nat, indent: nat)
    requires pos <= next < |text|
    ensures Expand(Plain(text[pos..next + 1]), indent) == Expand(Plain(text[pos..next]), indent) + Emit(text[next], indent)
  {
    assert text[pos..next + 1] == text[pos..next] + [text[next]];
    PlainAppend(text[pos..next], [text[next]]);
    ExpandAppend(Plain(text[pos..next]), Plain([text[next]]), indent);
    assert [text[next]][1..] == [];
  }

  /**
   One copy loop of `report_node_match`, comparing file offsets: copies the
   characters from `pos` until the file offset `target` is reached, pushing
   the indentation after each line feed.
   */
  method CopyUpTo(text: string, base: nat, pos: nat, target: nat, indent: nat) returns (chunk: seq<Piece>, next: nat)
    requires base + pos <= target <= base + |text|
    ensures next == target - base
    ensures chunk == Expand(Plain(text[pos..next]), indent)
  {
    chunk := [];
    next := pos;
    while base + next != target
      invariant pos <= next <= target - base
      invariant chunk == Expand(Plain(text[pos..next]), indent)
    {
      ExpandPlainSnoc(text, pos, next, indent);
      chunk := chunk + Emit(text[next], indent);
      next := next + 1;
    }
  }

  /**
   One capture of `report_node_match`'s copy loops: the text up to the
   capture, the prefix, the captured text and the suffix.
   */
  method RenderCapture(text: string, base: nat, rs: seq<Range>, pos: nat, color: bool, indent: nat)
    returns (chunk: seq<Piece>, next: nat)
    requires pos <= |text|
    requires Fits(rs, base + pos, base + |text|)
    requires rs != []
    ensures next <= |text| && next == rs[0].endByte - base
    ensures Fits(rs[1..], base + next, base + |text|)
    ensures chunk + Expand(MarkUp(text, base, rs[1..], next, color), indent)
            == Expand(MarkUp(text, base, rs, pos, color), indent)
  {
    assert base <= rs[0].startByte <= rs[0].endByte;
    ghost var s: nat, e: nat := Start(rs, base), End(rs, base);
    ExpandMarkUpStep(text, base, rs, pos, color, indent, s, e);
    var before, inside, p;
    before, p := CopyUpTo(text, base, pos, rs[0].startByte, indent);
    assert p == s;
    inside, next := CopyUpTo(text, base, p, rs[0].endByte, indent);
    assert next == e;
    chunk := before + Marker(Open, color) + inside + Marker(Close, color);
  }

  /**
   `report_node_match`'s copy loops with the capture ranges read relative to
   the parent's first byte `base`: copies the text up to each capture, the
   prefix, the captured text, the suffix, then the rest, following every
   copied line feed with `indent` spaces.
   */
  method RenderNodeMatch(text: string, base: nat, rs: seq<Range>, color: bool, indent: nat) returns (out: seq<Piece>)
    requires Fits(rs, base, base + |text|)
    ensures out == Expand(MarkUp(text, base, rs, 0, color), indent)
  {
    ghost var goal := Expand(MarkUp(text, base, rs, 0, color), indent);
    out := [];
    var pos: nat := 0;
    var todo := rs;
    while todo != []
      invariant pos <= |text|
      invariant Fits(todo, base + pos, base + |text|)
      invariant out + Expand(MarkUp(text, base, todo, pos, color), indent) == goal
      decreases |todo|
    {
      var chunk;
      chunk, pos := RenderCapture(text, base, todo, pos, color, indent);
      out := out + chunk;
      todo := todo[1..];
    }
    var rest, end := CopyUpTo(text, base, pos, base + |text|, indent);
    MarkUpRest(text, base, todo, pos, color);
    out := out + rest;
  }
}

=== FILE: render_laws.dfy ===
/**
 What a rendered structural match is made of: erasing the markers and the
 indentation gives back the parent's text, each marker sits at the offset of
 its capture's boundary, and the indentation is exactly `indent` spaces after
 every copied line feed.
 */
module RenderLaws {
  import opened Captures
  import opened Render
  import opened Seqs

  /** The copied characters of a rendering, without markers and indentation. */
  function Erase(ps: seq<Piece>): string
  {
    if ps == [] then [] else CharsOf(ps[0]) + Erase(ps[1..])
  }

  /** The characters one piece copies. */
  function CharsOf(p: Piece): string
  {
    if p.Text? then [p.c] else []
  }

  lemma {:induction false} EraseAppend(a: seq<Piece>, b: seq<Piece>)
    ensures Erase(a + b) == Erase(a) + Erase(b)
    decreases |a|
  {
    if a == [] {
      assert a + b == b;
    } else {
      assert (a + b)[1..] == a[1..] + b;
      assert (a + b)[0] == a[0];
      EraseAppend(a[1..], b);
    }
  }

  lemma {:induction false} ErasePlain(s: string)
    ensures Erase(Plain(s)) == s
    decreases |s|
  {
    if s != [] {
      assert Plain(s)[1..] == Plain(s[1..]);
      ErasePlain(s[1..]);
    }
  }

  lemma ErasePads(n: nat)
    ensures Erase(Pads(n)) == []
  {
    if n > 0 {
      assert Pads(n)[1..] == Pads(n - 1);
      ErasePads(n - 1);
    }
  }

  lemma EraseIndent(p: Piece, indent: nat)
    ensures Erase(Indent(p, indent)) == CharsOf(p)
  {
    if p.Text? && p.c == '\n' {
      EraseAppend([p], Pads(indent));
      ErasePads(indent);
    }
  }

  /** Indenting adds no characters. */
  lemma {:induction false} EraseExpand(ps: seq<Piece>, indent: nat)
    ensures Erase(Expand(ps, indent)) == Erase(ps)
    decreases |ps|
  {
    if ps != [] {
      EraseAppend(Indent(ps[0], indent), Expand(ps[1..], indent));
      EraseExpand(ps[1..], indent);
      EraseIndent(ps[0], indent);
    }
  }

  lemma EraseThenEmpty(a: seq<Piece>, b: seq<Piece>, x: string)
    requires Erase(a) == x && Erase(b) == []
    ensures Erase(a + b) == x
  {
    EraseAppend(a, b);
  }

  lemma EraseAroundEmpty(a: seq<Piece>, b: seq<Piece>, c: seq<Piece>, x: string, y: string)
    requires Erase(a) == x && Erase(b) == [] && Erase(c) == y
    ensures Erase(a + b + c) == x + y
  {
    EraseAppend(a + b, c);
    EraseAppend(a, b);
  }

  /** Erasing text, marker, text, marker, rest. */
  lemma EraseCapture(a: seq<Piece>, b: seq<Piece>, c: seq<Piece>, d: seq<Piece>, t: seq<Piece>,
                     x: string, y: string, z: string)
    requires Erase(a) == x && Erase(b) == [] && Erase(c) == y && Erase(d) == [] && Erase(t) == z
    ensures Erase(a + b + c + d + t) == x + y + z
  {
    EraseAroundEmpty(a, b, c, x, y);
    EraseThenEmpty(a + b + c, d, x + y);
    EraseAppend(a + b + c + d, t);
  }

  lemma EraseMarker(p: Piece, color: bool)
    requires !p.Text?
    ensures Erase(Marker(p, color)) == []
  {
    if color {
      assert [p][1..] == [];
    }
  }

  /** Erasing the pieces of one capture followed by the rest. */
  lemma EraseCaptureStep(m: seq<Piece>, x: string, y: string, t: seq<Piece>, z: string, v: string, color: bool)
    requires m == Plain(x) + Marker(Open, color) + Plain(y) + Marker(Close, color) + t
    requires Erase(t) == z && v == x + y + z
    ensures Erase(m) == v
  {
    ErasePlain(x);
    ErasePlain(y);
    EraseMarker(Open, color);
    EraseMarker(Close, color);
    EraseCapture(Plain(x), Marker(Open, color), Plain(y), Marker(Close, color), t, x, y, z);
  }

  lemma SplitAt(text: string, i: nat, j: nat, k: nat)
    requires i <= j <= k <= |text|
    ensures text[i..] == text[i..j] + text[j..k] + text[k..]
  {
  }

  /** The marked-up text holds the parent's characters from `pos` on, in order. */
  lemma {:induction false} EraseMarkUp(text: string, base: nat, rs: seq<Range>, pos: nat, color: bool)
    requires pos <= |text|
    requires Fits(rs, base + pos, base + |text|)
    ensures Erase(MarkUp(text, base, rs, pos, color)) == text[pos..]
    decreases |rs|
  {
    if rs == [] {
      ErasePlain(text[pos..]);
    } else {
      assert rs[0].startByte >= base;
      var s: nat, e: nat := rs[0].startByte - base, rs[0].endByte - base;
      MarkUpCons(text, base, rs, pos, color, s, e);
      EraseMarkUp(text, base, rs[1..], e, color);
      SplitAt(text, pos, s, e);
      EraseCaptureStep(MarkUp(text, base, rs, pos, color), text[pos..s], text[s..e],
                       MarkUp(text, base, rs[1..], e, color), text[e..], text[pos..], color);
    }
  }

  /** A marker and the number of copied characters before it, counted from `n`. */
  datatype Mark = Mark(piece: Piece, offset: int)

  /** The markers of a rendering with their offsets in the copied text. */
  function Marks(ps: seq<Piece>, n: int): seq<Mark>
  {
    if ps == [] then []
    else match ps[0]
      case Text(_) => Marks(ps[1..], n + 1)
      case Pad => Marks(ps[1..], n)
      case _ => [Mark(ps[0], n)] + Marks(ps[1..], n)
  }

  /** Where the markers of a capture list belong: around each range, relative to `base`. */
  function Expected(rs: seq<Range>, base: int): seq<Mark>
  {
    if rs == [] then []
    else [Mark(Open, rs[0].startByte - base), Mark(Close, rs[0].endByte - base)] + Expected(rs[1..], base)
  }

  lemma {:induction false} MarksAppend(a: seq<Piece>, b: seq<Piece>, n: int)
    ensures Marks(a + b, n) == Marks(a, n) + Marks(b, n + |Erase(a)|)
    decreases |a|
  {
    if a == [] {
      assert a + b == b;
    } else {
      assert (a + b)[1..] == a[1..] + b;
      MarksAppend(a[1..], b, if a[0].Text? then n + 1 else n);
    }
  }

  lemma {:induction false} MarksPlain(s: string, n: int)
    ensures Marks(Plain(s), n) == []
    decreases |s|
  {
    if s != [] {
      assert Plain(s)[1..] == Plain(s[1..]);
      MarksPlain(s[1..], n + 1);
    }
  }

  lemma MarksPads(k: nat, n: int)
    ensures Marks(Pads(k), n) == []
  {
    if k > 0 {
      assert Pads(k)[1..] == Pads(k - 1);
      MarksPads(k - 1, n);
    }
  }

  /** Indenting moves no marker within the copied text. */
  lemma {:induction false} MarksExpand(ps: seq<Piece>, indent: nat, n: int)
    ensures Marks(Expand(ps, indent), n) == Marks(ps, n)
    decreases |ps|
  {
    if ps != [] {
      var head := match ps[0] case Text(c) => Emit(c, indent) case _ => [ps[0]];
      assert Expand(ps, indent) == head + Expand(ps[1..], indent);
      MarksAppend(head, Expand(ps[1..], indent), n);
      EraseExpand([ps[0]], indent);
      assert Expand([ps[0]], indent) == head by {
        assert [ps[0]][1..] == [];
      }
      var m := if ps[0].Text? then n + 1 else n;
      assert |Erase(head)| == m - n;
      MarksExpand(ps[1..], indent, m);
      if ps[0].Text? && ps[0].c == '\n' {
        MarksAppend([ps[0]], Pads(indent), n);
        MarksPads(indent, n + 1);
      }
    }
  }

  /** Pieces without markers only move the offset of what follows. */
  lemma MarksThen(a: seq<Piece>, b: seq<Piece>, n: int, m: int)
    requires Marks(a, n) == [] && |Erase(a)| == m - n
    ensures Marks(a + b, n) == Marks(b, m)
  {
    MarksAppend(a, b, n);
  }

  lemma MarkerMarks(p: Piece, color: bool, n: int)
    requires p == Open || p == Close
    ensures Marks(Marker(p, color), n) == if color then [Mark(p, n)] else []
    ensures Erase(Marker(p, color)) == []
  {
    EraseMarker(p, color);
    if color {
      assert [p][1..] == [];
    }
  }

  /** A marker followed by more pieces. */
  lemma MarksAfterMarker(p: Piece, color: bool, rest: seq<Piece>, n: int)
    requires p == Open || p == Close
    ensures Marks(Marker(p, color) + rest, n) == (if color then [Mark(p, n)] else []) + Marks(rest, n)
  {
    MarkerMarks(p, color, n);
    MarksAppend(Marker(p, color), rest, n);
  }

  /** The markers of text, prefix, text, suffix, rest. */
  lemma MarksCapture(x: string, y: string, t: seq<Piece>, color: bool, n: int, s: int, e: int, m: seq<Piece>)
    requires s == n + |x| && e == s + |y|
    requires m == Plain(x) + (Marker(Open, color) + (Plain(y) + (Marker(Close, color) + t)))
    ensures Marks(m, n) == (if color then [Mark(Open, s), Mark(Close, e)] else []) + Marks(t, e)
  {
    var rest3 := Marker(Close, color) + t;
    var rest2 := Plain(y) + rest3;
    var rest1 := Marker(Open, color) + rest2;
    assert Marks(m, n) == Marks(rest1, s) by {
      MarksPlain(x, n);
      ErasePlain(x);
      MarksThen(Plain(x), rest1, n, s);
    }
    assert Marks(rest1, s) == (if color then [Mark(Open, s)] else []) + Marks(rest2, s) by {
      MarksAfterMarker(Open, color, rest2, s);
    }
    assert Marks(rest2, s) == Marks(rest3, e) by {
      MarksPlain(y, s);
      ErasePlain(y);
      MarksThen(Plain(y), rest3, s, e);
    }
    assert Marks(rest3, e) == (if color then [Mark(Close, e)] else []) + Marks(t, e) by {
      MarksAfterMarker(Close, color, t, e);
    }
    if color {
      AppendAssoc([Mark(Open, s)], [Mark(Close, e)], Marks(t, e));
    }
  }

  /** With colour on, the markers sit at the capture boundaries; with colour off there are none. */
  lemma {:induction false} MarksMarkUp(text: string, base: nat, rs: seq<Range>, pos: nat, color: bool)
    requires pos <= |text|
    requires Fits(rs, base + pos, base + |text|)
    ensures Marks(MarkUp(text, base, rs, pos, color), pos) == if color then Expected(rs, base) else []
    decreases |rs|
  {
    if rs == [] {
      MarksPlain(text[pos..], pos);
    } else {
      assert rs[0].startByte >= base;
      var s: nat, e: nat := rs[0].startByte - base, rs[0].endByte - base;
      MarkUpCons(text, base, rs, pos, color, s, e);
      AppendAssoc5(Plain(text[pos..s]), Marker(Open, color), Plain(text[s..e]), Marker(Close, color),
                   MarkUp(text, base, rs[1..], e, color));
      MarksCapture(text[pos..s], text[s..e], MarkUp(text, base, rs[1..], e, color), color, pos, s, e,
                   MarkUp(text, base, rs, pos, color));
      MarksMarkUp(text, base, rs[1..], e, color);
      assert Expected(rs, base) == [Mark(Open, s), Mark(Close, e)] + Expected(rs[1..], base);
    }
  }

  /** No indentation piece. */
  predicate NoPads(ps: seq<Piece>)
  {
    forall i :: 0 <= i < |ps| ==> ps[i] != Pad
  }

  /**
   Exactly `indent` indentation pieces follow every line feed, and there are
   no others.
   */
  predicate Indented(qs: seq<Piece>, indent: nat)
    decreases |qs|
  {
    if qs == [] then true
    else if qs[0] == Text('\n') then
      |qs| >= 1 + indent && qs[1..1 + indent] == Pads(indent) && Indented(qs[1 + indent..], indent)
    else qs[0] != Pad && Indented(qs[1..], indent)
  }

  /** The pieces with the indentation removed. */
  function Unpad(qs: seq<Piece>): seq<Piece>
  {
    if qs == [] then []
    else (if qs[0] == Pad then [] else [qs[0]]) + Unpad(qs[1..])
  }

  lemma UnpadPads(n: nat)
    ensures Unpad(Pads(n)) == []
  {
    if n > 0 {
      assert Pads(n)[1..] == Pads(n - 1);
      UnpadPads(n - 1);
    }
  }

  lemma {:induction false} UnpadAppend(a: seq<Piece>, b: seq<Piece>)
    ensures Unpad(a + b) == Unpad(a) + Unpad(b)
    decreases |a|
  {
    if a == [] {
      assert a + b == b;
    } else {
      assert (a + b)[1..] == a[1..] + b;
      UnpadAppend(a[1..], b);
    }
  }

  /** The head of unpadded pieces is no pad, and neither is any of the rest. */
  lemma NoPadsCons(ps: seq<Piece>)
    requires NoPads(ps) && ps != []
    ensures ps[0] != Pad && NoPads(ps[1..])
  {
    forall i | 0 <= i < |ps[1..]| ensures ps[1..][i] != Pad {
      assert ps[1..][i] == ps[i + 1];
    }
  }

  /** An indented piece followed by indented pieces is indented. */
  lemma IndentedCons(p: Piece, rest: seq<Piece>, indent: nat)
    requires p != Pad && Indented(rest, indent)
    ensures Indented(Indent(p, indent) + rest, indent)
  {
    var qs := Indent(p, indent) + rest;
    if p == Text('\n') {
      assert qs == [Text('\n')] + Pads(indent) + rest;
      assert qs[1..1 + indent] == Pads(indent);
      assert qs[1 + indent..] == rest;
    } else {
      assert qs == [p] + rest;
      assert qs[1..] == rest;
    }
  }

  /** Removing the indentation of one indented piece gives the piece. */
  lemma UnpadIndent(p: Piece, indent: nat)
    requires p != Pad
    ensures Unpad(Indent(p, indent)) == [p]
  {
    if p == Text('\n') {
      UnpadAppend([Text('\n')], Pads(indent));
      UnpadPads(indent);
    }
  }

  /**
   Indenting unpadded pieces puts exactly `indent` spaces after each line
   feed, and removing them gives the pieces back.
   */
  lemma {:induction false} ExpandIndents(ps: seq<Piece>, indent: nat)
    requires NoPads(ps)
    ensures Indented(Expand(ps, indent), indent)
    ensures Unpad(Expand(ps, indent)) == ps
    decreases |ps|
  {
    if ps != [] {
      NoPadsCons(ps);
      ExpandIndents(ps[1..], indent);
      IndentedCons(ps[0], Expand(ps[1..], indent), indent);
      UnpadAppend(Indent(ps[0], indent), Expand(ps[1..], indent));
      UnpadIndent(ps[0], indent);
      assert ps == [ps[0]] + ps[1..];
    }
  }

  lemma {:induction false} PlainNoPads(s: string)
    ensures NoPads(Plain(s))
    decreases |s|
  {
    if s != [] {
      PlainNoPads(s[1..]);
      assert Plain(s) == [Text(s[0])] + Plain(s[1..]);
    }
  }

  lemma NoPadsCapture(x: string, y: string, t: seq<Piece>, color: bool)
    requires NoPads(t)
    ensures NoPads(Plain(x) + Marker(Open, color) + Plain(y) + Marker(Close, color) + t)
  {
    PlainNoPads(x);
    PlainNoPads(y);
  }

  lemma {:induction false} MarkUpNoPads(text: string, base: nat, rs: seq<Range>, pos: nat, color: bool)
    requires pos <= |text|
    requires Fits(rs, base + pos, base + |text|)
    ensures NoPads(MarkUp(text, base, rs, pos, color))
    decreases |rs|
  {
    if rs == [] {
      PlainNoPads(text[pos..]);
    } else {
      assert rs[0].startByte >= base;
      var s: nat, e: nat := rs[0].startByte - base, rs[0].endByte - base;
      MarkUpCons(text, base, rs, pos, color, s, e);
      MarkUpNoPads(text, base, rs[1..], e, color);
      NoPadsCapture(text[pos..s], text[s..e], MarkUp(text, base, rs[1..], e, color), color);
    }
  }

  /**
   The rendering of a structural match: its characters are the parent's
   text, with colour on its markers are exactly the capture boundaries
   relative to the parent (none with colour off), its indentation follows
   every line feed, and removing the indentation gives the marked-up text.
   */
  lemma RenderedMatch(text: string, base: nat, rs: seq<Range>, color: bool, indent: nat)
    requires Fits(rs, base, base + |text|)
    ensures var out := Expand(MarkUp(text, base, rs, 0, color), indent);
            Erase(out) == text
            && Marks(out, 0) == (if color then Expected(rs, base) else [])
            && Indented(out, indent)
            && Unpad(out) == MarkUp(text, base, rs, 0, color)
  {
    var ps := MarkUp(text, base, rs, 0, color);
    EraseExpand(ps, indent);
    EraseMarkUp(text, base, rs, 0, color);
    assert text[0..] == text;
    MarksExpand(ps, indent, 0);
    MarksMarkUp(text, base, rs, 0, color);
    MarkUpNoPads(text, base, rs, 0, color);
    ExpandIndents(ps, indent);
  }
}

=== FILE: report.dfy ===
/**
 The report printers of `src/report.rs`: the per-file header with its
 separating blank line, the per-match file path and the line number. Output
 is modelled as the sequence of strings written so far.
 */
module Report {
  import opened Config

  /** `header_printed` (per file) and `first` (per run). */
  datatype Flags = Flags(headerPrinted: bool, first: bool)

  /** A decimal digit character. */
  predicate IsDigit(c: char) { '0' <= c <= '9' }

  /** The decimal digit of `d`. */
  function DigitChar(d: nat): (c: char)
    requires d < 10
    ensures IsDigit(c)
  {
    ('0' as int + d) as char
  }

  /** `n` formatted with `{}`: decimal, no leading zeros. */
  function NatToString(n: nat): (s: string)
    ensures |s| > 0
    ensures forall i :: 0 <= i < |s| ==> IsDigit(s[i])
    ensures s[0] == '0' ==> n == 0 && s == "0"
    decreases n
  {
    if n < 10 then [DigitChar(n)] else NatToString(n / 10) + [DigitChar(n % 10)]
  }

  /** The value of a string of decimal digits. */
  function DecimalValue(s: string): nat
    requires forall i :: 0 <= i < |s| ==> IsDigit(s[i])
  {
    if s == [] then 0
    else
      assert IsDigit(s[|s| - 1]);
      DecimalValue(s[..|s| - 1]) * 10 + (s[|s| - 1] as int - '0' as int)
  }

  /** Reading a formatted number back gives the number. */
  lemma {:induction false} DecimalRoundTrip(n: nat)
    ensures DecimalValue(NatToString(n)) == n
    decreases n
  {
    if n >= 10 {
      DecimalRoundTrip(n / 10);
      var s := NatToString(n);
      assert s[..|s| - 1] == NatToString(n / 10);
    }
  }

  /** Text wrapped in a style's escapes when colour is on. */
  function Styled(cfg: Cfg, style: Style, text: string): string
  {
    if cfg.color then style.prefix + text + style.suffix else text
  }

  /**
   `print_header`: with grouping on and no header yet for this file, writes
   a blank line unless this is the first header of the run, then the path
   and a line feed; afterwards the header counts as printed and the run is
   no longer at its first header. Otherwise nothing changes.
   */
  function PrintHeader(cfg: Cfg, path: string, flags: Flags, out: seq<string>): (r: (Flags, seq<string>))
    ensures !(cfg.group && !flags.headerPrinted) ==> r == (flags, out)
    ensures cfg.group && !flags.headerPrinted ==> r.0 == Flags(true, false)
    ensures cfg.group && !flags.headerPrinted && flags.first ==> r.1 == out + [Styled(cfg, cfg.filePathStyle, path) + "\n"]
    ensures cfg.group && !flags.headerPrinted && !flags.first ==> r.1 == out + ["\n", Styled(cfg, cfg.filePathStyle, path) + "\n"]
    ensures cfg.group ==> r.0.headerPrinted
  {
    if !flags.headerPrinted && cfg.group then
      var out := if flags.first then out else out + ["\n"];
      (Flags(true, false), out + [Styled(cfg, cfg.filePathStyle, path) + "\n"])
    else (flags, out)
  }

  /** A second header for the same file writes nothing. */
  lemma PrintHeaderOnce(cfg: Cfg, path: string, flags: Flags, out: seq<string>)
    ensures var (f1, o1) := PrintHeader(cfg, path, flags, out);
            PrintHeader(cfg, path, f1, o1) == (f1, o1)
  {
  }

  /** `print_file_path`: `path:` before each match, only when not grouping. */
  function PrintFilePath(cfg: Cfg, path: string, out: seq<string>): (r: seq<string>)
    ensures cfg.group ==> r == out
    ensures !cfg.group ==> r == out + [Styled(cfg, cfg.filePathStyle, path) + ":"]
  {
    if !cfg.group then out + [Styled(cfg, cfg.filePathStyle, path) + ":"] else out
  }

  /**
   The first match of a file announces the path exactly once: as a header
   line when grouping (after a blank line unless it is the run's first), as a
   `path:` prefix otherwise.
   */
  lemma PathAnnouncedOnce(cfg: Cfg, path: string, first: bool, out: seq<string>)
    ensures var o := PrintFilePath(cfg, path, PrintHeader(cfg, path, Flags(false, first), out).1);
            |o| == |out| + (if cfg.group && !first then 2 else 1)
            && o[..|out|] == out
            && (cfg.group && !first ==> o[|out|] == "\n")
            && o[|o| - 1] == Styled(cfg, cfg.filePathStyle, path) + (if cfg.group then "\n" else ":")
  {
  }

  /** `print_line_number`: the number and a colon. */
  function PrintLineNumber(cfg: Cfg, line: nat, out: seq<string>): (r: seq<string>)
    ensures |r| == |out| + 1 && r[..|out|] == out
    ensures !cfg.color ==> var w := r[|out|];
      |w| >= 2 && w[|w| - 1] == ':'
      && (forall i :: 0 <= i < |w| - 1 ==> IsDigit(w[i]))
      && DecimalValue(w[..|w| - 1]) == line
      && (w[0] == '0' ==> |w| == 2)
    ensures !cfg.color ==> r[|out|] == NatToString(line) + ":"
  {
    var w := Styled(cfg, cfg.lineNumStyle, NatToString(line)) + ":";
    assert !cfg.color ==> DecimalValue(w[..|w| - 1]) == line by {
      if !cfg.color {
        assert w[..|w| - 1] == NatToString(line);
        DecimalRoundTrip(line);
      }
    }
    out + [w]
  }

  /** The header lines of a run: one per file that has matches, in order. */
  function Headers(cfg: Cfg, paths: seq<string>): seq<string>
  {
    seq(|paths|, i requires 0 <= i < |paths| => Styled(cfg, cfg.filePathStyle, paths[i]) + "\n")
  }

  /** Headers separated by blank lines: no blank line before the first. */
  function JoinedHeaders(headers: seq<string>): seq<string>
  {
    if |headers| <= 1 then headers
    else JoinedHeaders(headers[..|headers| - 1]) + ["\n", headers[|headers| - 1]]
  }

  /**
   The headers of one file with `matches` matches: `print_header` before each
   match, starting with `header_printed` false as each file does.
   */
  function FileHeaders(cfg: Cfg, path: string, matches: nat, flags: Flags, out: seq<string>): (Flags, seq<string>)
    decreases matches
  {
    if matches == 0 then (flags, out)
    else
      var (f, o) := PrintHeader(cfg, path, flags, out);
      FileHeaders(cfg, path, matches - 1, f, o)
  }

  /** However many matches a file has, with grouping it gets exactly one header. */
  lemma {:induction false} FileHeadersOnce(cfg: Cfg, path: string, matches: nat, flags: Flags, out: seq<string>)
    requires cfg.group && matches > 0
    ensures FileHeaders(cfg, path, matches, flags, out) == PrintHeader(cfg, path, flags, out)
    decreases matches
  {
    var (f, o) := PrintHeader(cfg, path, flags, out);
    if matches > 1 {
      FileHeadersOnce(cfg, path, matches - 1, f, o);
      PrintHeaderOnce(cfg, path, flags, out);
    } else {
      assert FileHeaders(cfg, path, 0, f, o) == (f, o);
    }
  }

  /** The headers written over a run of files, each with at least one match. */
  function RunHeaders(cfg: Cfg, paths: seq<string>, first: bool, out: seq<string>): (r: (bool, seq<string>))
  {
    if paths == [] then (first, out)
    else
      var (f, o) := RunHeaders(cfg, paths[..|paths| - 1], first, out);
      var (f2, o2) := PrintHeader(cfg, paths[|paths| - 1], Flags(false, f), o);
      (f2.first, o2)
  }

  /**
   Over a whole grouped run that starts fresh, the output is the headers in
   order separated by single blank lines, with none before the first.
   */
  lemma {:induction false} RunHeadersJoined(cfg: Cfg, paths: seq<string>)
    requires cfg.group
    ensures RunHeaders(cfg, paths, true, []).1 == JoinedHeaders(Headers(cfg, paths))
    ensures RunHeaders(cfg, paths, true, []).0 <==> paths == []
    decreases |paths|
  {
    if paths != [] {
      var init := paths[..|paths| - 1];
      RunHeadersJoined(cfg, init);
      var hs := Headers(cfg, paths);
      assert hs[..|hs| - 1] == Headers(cfg, init);
      if |paths| == 1 {
        assert init == [];
      }
    }
  }
}

=== FILE: search_mode.dfy ===
/**
 Building the search mode from the command line in `src/main.rs`: the case
 policy applied to a literal pattern, and the precedence of a structural
 query over a pattern.
 */
module SearchMode {
  import opened Wrappers
  import opened Chars

  /** The `--case` policy. */
  datatype Casing = Smart | Sensitive | Insensitive

  /** A structural query as given on the command line: its source text, or a name. */
  datatype QueryArg = Literal(source: string) | Name(name: string)

  /**
   A literal pattern. Its invariant: when matching is case-insensitive the
   word is lowercase, which is what the matcher relies on.
   */
  datatype Pat = Pat(word: string, caseSensitive: bool)

  predicate PatValid(p: Pat)
  {
    p.caseSensitive || p.word == Lower(p.word)
  }

  /** What to search for: a literal pattern, or the source of a compiled structural query. */
  datatype Mode = Pattern(pat: Pat) | Query(querySource: string)

  /** Why no search mode could be built; each ends the program in the source. */
  datatype ModeError =
    | NoPatternOrQuery          // reported, then `process::exit(1)`
    | QuerySyntax(source: string) // `Query::new` failed: a panic
    | NamedQueryUnsupported     // `todo!()`: a panic

  /** The capture appended to every literal query so that each match captures the whole node. */
  const NodeCapture: string := " @node"

  /**
   The `get_pat_sensitivity` closure as written: Smart is case-sensitive iff
   the pattern has an uppercase character and leaves the pattern alone;
   Sensitive leaves it alone; Insensitive lowercases it.
   */
  function PatSensitivityAsWritten(casing: Casing, pat: string): (p: Pat)
    ensures casing == Smart ==> p.word == pat && (p.caseSensitive <==> HasUppercase(pat))
    ensures casing == Sensitive ==> p == Pat(pat, true)
    ensures casing == Insensitive ==> p == Pat(Lower(pat), false)
  {
    match casing
    case Smart => Pat(pat, HasUppercase(pat))
    case Sensitive => Pat(pat, true)
    case Insensitive => Pat(Lower(pat), false)
  }

  /**
   With a titlecase character and no uppercase one, Smart casing picks
   case-insensitive matching but keeps a pattern that is not lowercase, so
   the pattern invariant (and the matcher's debug assertion) fails.
   */
  lemma SmartTitlecaseBreaksInvariant()
    ensures !PatValid(PatSensitivityAsWritten(Smart, [DzTitle]))
  {
    assert !HasUppercase([DzTitle]);
    assert Lower([DzTitle])[0] == DzSmall;
  }

  /**
   The case policy with Smart casing repaired: Smart decides sensitivity as
   before, and when it picks case-insensitive matching it lowercases the
   pattern as Insensitive does.
   */
  function PatSensitivity(casing: Casing, pat: string): (p: Pat)
    ensures PatValid(p)
    ensures casing == Smart ==> (p.caseSensitive <==> HasUppercase(pat))
    ensures casing == Smart && HasUppercase(pat) ==> p == Pat(pat, true)
    ensures casing == Smart && !HasUppercase(pat) ==> p == Pat(Lower(pat), false)
    ensures casing == Sensitive ==> p == Pat(pat, true)
    ensures casing == Insensitive ==> p == Pat(Lower(pat), false)
    ensures p.word == pat || p.word == Lower(pat)
  {
    LowerIdempotent(pat);
    match casing
    case Smart => if HasUppercase(pat) then Pat(pat, true) else Pat(Lower(pat), false)
    case Sensitive => Pat(pat, true)
    case Insensitive => Pat(Lower(pat), false)
  }

  /** The pattern has no titlecase character. */
  predicate NoTitlecase(pat: string)
  {
    forall i :: 0 <= i < |pat| ==> pat[i] != DzTitle
  }

  /** The repair changes nothing for patterns without titlecase characters. */
  lemma PatSensitivityAgreesWithoutTitlecase(casing: Casing, pat: string)
    requires NoTitlecase(pat)
    ensures PatSensitivity(casing, pat) == PatSensitivityAsWritten(casing, pat)
  {
    if casing == Smart && !HasUppercase(pat) {
      LowerOfCaseless(pat);
    }
  }

  /**
   `mk_search_mode`: a query takes precedence and the pattern is then
   ignored; a literal query is extended with the ` @node` capture and
   compiled (`compiles` stands for `Query::new` succeeding); a named query is
   not implemented; a pattern alone gets its case policy, as the closure is
   written; neither is an error.
   */
  function MkSearchMode(pat: Option<string>, query: Option<QueryArg>, casing: Casing,
                        compiles: string -> bool): (r: Result<Mode, ModeError>)
    ensures query.None? && pat.None? <==> r == Failure(NoPatternOrQuery)
    ensures query.None? && pat.Some? ==> r == Success(Pattern(PatSensitivityAsWritten(casing, pat.value)))
    ensures query.None? && pat.Some? && NoTitlecase(pat.value) ==> r.Success? && PatValid(r.value.pat)
    ensures query.Some? && query.value.Literal? ==>
      var source := query.value.source + NodeCapture;
      (compiles(source) ==> r == Success(Query(source))) && (!compiles(source) ==> r == Failure(QuerySyntax(source)))
    ensures query.Some? && query.value.Name? ==> r == Failure(NamedQueryUnsupported)
    ensures r.Success? && r.value.Query? ==> EndsWith(r.value.querySource, NodeCapture)
  {
    match query
    case None =>
      (match pat
       case None => Failure(NoPatternOrQuery)
       case Some(p) =>
         assert NoTitlecase(p) ==> PatValid(PatSensitivityAsWritten(casing, p)) by {
           if NoTitlecase(p) {
             PatSensitivityAgreesWithoutTitlecase(casing, p);
           }
         }
         Success(Pattern(PatSensitivityAsWritten(casing, p))))
    case Some(Literal(q)) =>
      var source := q + NodeCapture;
      assert source[|source| - |NodeCapture|..] == NodeCapture;
      if compiles(source) then Success(Query(source)) else Failure(QuerySyntax(source))
    case Some(Name(_)) => Failure(NamedQueryUnsupported)
  }

  /**
   The whole search-mode construction with Smart casing and the pattern `ǅ`
   yields a pattern mode that breaks the pattern invariant.
   */
  lemma MkSearchModeTitlecase(compiles: string -> bool)
    ensures MkSearchMode(Some([DzTitle]), None, Smart, compiles).Success?
    ensures !PatValid(MkSearchMode(Some([DzTitle]), None, Smart, compiles).value.pat)
  {
    SmartTitlecaseBreaksInvariant();
  }

  /** The pattern given alongside a query has no effect on the result. */
  lemma QueryIgnoresPattern(p1: Option<string>, p2: Option<string>, q: QueryArg, casing: Casing, compiles: string -> bool)
    ensures MkSearchMode(p1, Some(q), casing, compiles) == MkSearchMode(p2, Some(q), casing, compiles)
  {
  }
}

=== FILE: seqs.dfy ===
/** Facts about sequences that the proofs of the other modules call on. */
module Seqs {

  /** Concatenation is associative. */
  lemma AppendAssoc<T>(a: seq<T>, b: seq<T>, c: seq<T>)
    ensures a + b + c == a + (b + c)
  {
  }

  /** Five concatenated parts, regrouped from the right. */
  lemma AppendAssoc5<T>(a: seq<T>, b: seq<T>, c: seq<T>, d: seq<T>, e: seq<T>)
    ensures a + b + c + d + e == a + (b + (c + (d + e)))
  {
    AppendAssoc(a + b + c, d, e);
    AppendAssoc(a + b, c, d + e);
    AppendAssoc(a, b, c + (d + e));
  }
}

=== FILE: word.dfy ===
/**
 The literal matcher of `src/search/word.rs`: finding a pattern inside one
 token under a case policy and an optional whole-word constraint, and
 turning an offset inside a token into a line delta and a column.
 */
module Word {
  import opened Chars

  /** The pattern `p` occurs in `t` starting at offset `i`. */
  predicate OccursAt(t: string, p: string, i: nat)
  {
    i + |p| <= |t| && t[i..i + |p|] == p
  }

  /** How far `match_indices` moves past a hit: the hit's length, or one character for an empty pattern. */
  function Step(p: string): nat
  {
    if |p| == 0 then 1 else |p|
  }

  /** Strictly increasing offsets. */
  predicate Ascending(r: seq<nat>)
  {
    forall j, k :: 0 <= j < k < |r| ==> r[j] < r[k]
  }

  /** Every entry of `r` is an occurrence of `p` in `t` at or after `from`. */
  ghost predicate AllOccur(t: string, p: string, from: nat, r: seq<nat>)
  {
    forall k :: 0 <= k < |r| ==> from <= r[k] && OccursAt(t, p, r[k])
  }

  /** Each entry of `r` starts at or past the end of the previous one. */
  ghost predicate NonOverlapping(p: string, r: seq<nat>)
  {
    forall k :: 0 <= k < |r| - 1 ==> r[k] + Step(p) <= r[k + 1]
  }

  /** Every occurrence at or after `from` that `r` leaves out overlaps one that it lists. */
  ghost predicate NoneSkipped(t: string, p: string, from: nat, r: seq<nat>)
  {
    forall i :: from <= i && OccursAt(t, p, i) && i !in r ==>
      exists k :: 0 <= k < |r| && r[k] < i < r[k] + |p|
  }

  /**
   `r` lists the leftmost non-overlapping occurrences of `p` in `t` at or
   after `from`: every entry is an occurrence, each entry starts at or past
   the end of the previous one, and every occurrence that is left out
   overlaps one that is listed.
   */
  ghost predicate LeftmostFrom(t: string, p: string, from: nat, r: seq<nat>)
  {
    AllOccur(t, p, from, r) && NonOverlapping(p, r) && NoneSkipped(t, p, from, r)
  }

  /** A hit at `from` followed by the leftmost hits past it are the leftmost hits from `from`. */
  lemma LeftmostCons(t: string, p: string, from: nat, rest: seq<nat>)
    requires OccursAt(t, p, from)
    requires LeftmostFrom(t, p, from + Step(p), rest)
    ensures LeftmostFrom(t, p, from, [from] + rest)
  {
    var r := [from] + rest;
    assert AllOccur(t, p, from, r) by {
      forall k | 0 <= k < |r| ensures from <= r[k] && OccursAt(t, p, r[k]) {
        if k > 0 { assert r[k] == rest[k - 1]; }
      }
    }
    assert NonOverlapping(p, r) by {
      forall k | 0 <= k < |r| - 1 ensures r[k] + Step(p) <= r[k + 1] {
        if k > 0 { assert r[k] == rest[k - 1]; }
        assert r[k + 1] == rest[k];
      }
    }
    forall i | from <= i && OccursAt(t, p, i) && i !in r
      ensures exists k :: 0 <= k < |r| && r[k] < i < r[k] + |p|
    {
      if i < from + |p| {
        assert r[0] < i < r[0] + |p|;
      } else {
        assert i !in rest;
        var k :| 0 <= k < |rest| && rest[k] < i < rest[k] + |p|;
        assert r[k + 1] == rest[k];
      }
    }
  }

  /** With no hit at `from`, the leftmost hits from `from + 1` are those from `from`. */
  lemma LeftmostSkip(t: string, p: string, from: nat, r: seq<nat>)
    requires !OccursAt(t, p, from)
    requires LeftmostFrom(t, p, from + 1, r)
    ensures LeftmostFrom(t, p, from, r)
  {
    forall i | from <= i && OccursAt(t, p, i) && i !in r
      ensures exists k :: 0 <= k < |r| && r[k] < i < r[k] + |p|
    {
      assert from + 1 <= i;
    }
  }

  /** `t.match_indices(p)` from offset `from` on, keeping only the start offsets. */
  function MatchIndicesFrom(t: string, p: string, from: nat): seq<nat>
    decreases |t| + 1 - from
  {
    if from + |p| > |t| then []
    else if OccursAt(t, p, from) then [from] + MatchIndicesFrom(t, p, from + Step(p))
    else MatchIndicesFrom(t, p, from + 1)
  }

  /** `match_indices` yields the leftmost non-overlapping occurrences. */
  lemma {:induction false} MatchIndicesLeftmost(t: string, p: string, from: nat)
    ensures LeftmostFrom(t, p, from, MatchIndicesFrom(t, p, from))
    decreases |t| + 1 - from
  {
    if from + |p| > |t| {
      forall i | from <= i && OccursAt(t, p, i)
        ensures false
      {
      }
    } else if OccursAt(t, p, from) {
      MatchIndicesLeftmost(t, p, from + Step(p));
      LeftmostCons(t, p, from, MatchIndicesFrom(t, p, from + Step(p)));
    } else {
      MatchIndicesLeftmost(t, p, from + 1);
      LeftmostSkip(t, p, from, MatchIndicesFrom(t, p, from + 1));
    }
  }

  /** The start offsets of `t.match_indices(p)`. */
  function MatchIndices(t: string, p: string): seq<nat>
  {
    MatchIndicesFrom(t, p, 0)
  }

  /** Entries that do not overlap chain upwards, so they are strictly increasing. */
  lemma {:induction false} NonOverlappingAscending(p: string, r: seq<nat>)
    requires NonOverlapping(p, r)
    ensures Ascending(r)
  {
    forall j, k | 0 <= j < k < |r|
      ensures r[j] < r[k]
    {
      var m := j;
      while m < k
        invariant j <= m <= k
        invariant r[j] + (m - j) <= r[m]
      {
        m := m + 1;
      }
    }
  }

  /** In a non-overlapping list, every later entry starts past the end of the first. */
  lemma NonOverlappingHead(p: string, r: seq<nat>)
    requires NonOverlapping(p, r) && |r| > 0
    ensures forall k :: 0 < k < |r| ==> r[0] + Step(p) <= r[k]
  {
    NonOverlappingAscending(p, r);
    forall k | 0 < k < |r| ensures r[0] + Step(p) <= r[k] {
      if k > 1 {
        assert r[1] < r[k];
      }
    }
  }

  /** The entries after the first of a non-overlapping list do not overlap. */
  lemma NonOverlappingTail(p: string, r: seq<nat>)
    requires NonOverlapping(p, r) && |r| > 0
    ensures NonOverlapping(p, r[1..])
  {
    forall k | 0 <= k < |r[1..]| - 1 ensures r[1..][k] + Step(p) <= r[1..][k + 1] {
      assert r[1..][k] == r[k + 1] && r[1..][k + 1] == r[k + 2];
    }
  }

  /** The entries after the first are occurrences at or after any bound below all of them. */
  lemma AllOccurTail(t: string, p: string, from: nat, r: seq<nat>, bound: nat)
    requires AllOccur(t, p, from, r) && |r| > 0
    requires forall k :: 0 < k < |r| ==> bound <= r[k]
    ensures AllOccur(t, p, bound, r[1..])
  {
    forall k | 0 <= k < |r[1..]| ensures bound <= r[1..][k] && OccursAt(t, p, r[1..][k]) {
      assert r[1..][k] == r[k + 1];
    }
  }

  /** An occurrence past the end of the first entry that the tail leaves out overlaps a tail entry. */
  lemma NoneSkippedTail(t: string, p: string, from: nat, r: seq<nat>)
    requires NoneSkipped(t, p, from, r) && |r| > 0 && from <= r[0]
    ensures NoneSkipped(t, p, r[0] + Step(p), r[1..])
  {
    var tail := r[1..];
    forall i | r[0] + Step(p) <= i && OccursAt(t, p, i) && i !in tail
      ensures exists k :: 0 <= k < |tail| && tail[k] < i < tail[k] + |p|
    {
      assert i !in r by {
        assert r == [r[0]] + tail;
      }
      var k :| 0 <= k < |r| && r[k] < i < r[k] + |p|;
      assert k != 0;
      assert tail[k - 1] == r[k];
    }
  }

  /** Dropping the first entry leaves the leftmost occurrences after it. */
  lemma LeftmostTail(t: string, p: string, from: nat, r: seq<nat>)
    requires LeftmostFrom(t, p, from, r)
    requires |r| > 0
    ensures LeftmostFrom(t, p, r[0] + Step(p), r[1..])
  {
    NonOverlappingHead(p, r);
    AllOccurTail(t, p, from, r, r[0] + Step(p));
    NonOverlappingTail(p, r);
    NoneSkippedTail(t, p, from, r);
  }

  /** The first entry of an ascending list is its least. */
  lemma AscendingHeadLeast(r: seq<nat>, x: nat)
    requires Ascending(r) && x in r
    ensures r[0] <= x
  {
  }

  /** The first entry of a leftmost list is at or after the first entry of any other. */
  lemma LeftmostHeadBound(t: string, p: string, from: nat, r1: seq<nat>, r2: seq<nat>)
    requires LeftmostFrom(t, p, from, r1)
    requires LeftmostFrom(t, p, from, r2)
    requires |r1| > 0
    ensures |r2| > 0 && r2[0] <= r1[0]
  {
    NonOverlappingAscending(p, r2);
    assert r1[0] in r2 || exists k :: 0 <= k < |r2| && r2[k] < r1[0] < r2[k] + |p|;
    if r1[0] in r2 {
      AscendingHeadLeast(r2, r1[0]);
    } else {
      var k :| 0 <= k < |r2| && r2[k] < r1[0] < r2[k] + |p|;
      AscendingHeadLeast(r2, r2[k]);
    }
  }

  /** The leftmost non-overlapping occurrences are unique: the description above pins down one list. */
  lemma {:induction false} LeftmostUnique(t: string, p: string, from: nat, r1: seq<nat>, r2: seq<nat>)
    requires LeftmostFrom(t, p, from, r1)
    requires LeftmostFrom(t, p, from, r2)
    ensures r1 == r2
    decreases |r1|
  {
    if |r1| == 0 {
      if |r2| > 0 {
        LeftmostHeadBound(t, p, from, r2, r1);
      }
    } else {
      LeftmostHeadBound(t, p, from, r1, r2);
      LeftmostHeadBound(t, p, from, r2, r1);
      LeftmostTail(t, p, from, r1);
      LeftmostTail(t, p, from, r2);
      LeftmostUnique(t, p, r1[0] + Step(p), r1[1..], r2[1..]);
      assert r1 == [r1[0]] + r1[1..];
      assert r2 == [r2[0]] + r2[1..];
    }
  }

  /**
   `check_word_bounds`: the character before `begin` and the character at
   `end` are not alphabetic; a missing neighbour at either end of the text
   counts as a boundary. Slicing past the text panics in the source. The
   contract is the rule itself; the unit tests in `WordExamples` check it.
   */
  function CheckWordBounds(text: string, begin: nat, end: nat): (r: bool)
    requires begin <= |text| && end <= |text|
    ensures r <==> (begin == 0 || !IsAlphabetic(text[begin - 1]))
                   && (end == |text| || !IsAlphabetic(text[end]))
  {
    if begin > 0 && IsAlphabetic(text[begin - 1]) then false
    else if end < |text| && IsAlphabetic(text[end]) then false
    else true
  }

  /** The head of an ascending list, put before an ascending selection of its tail, keeps it ascending. */
  lemma AscendingConsSubset(occ: seq<nat>, rest: seq<nat>)
    requires occ != [] && Ascending(occ) && Ascending(rest)
    requires forall i :: i in rest ==> i in occ[1..]
    ensures Ascending([occ[0]] + rest)
  {
    forall k | 0 <= k < |rest|
      ensures occ[0] < rest[k]
    {
      assert rest[k] in occ[1..];
      var j :| 0 <= j < |occ[1..]| && occ[1..][j] == rest[k];
      assert occ[j + 1] == rest[k];
    }
  }

  /** The occurrences in `occ` that stand on word boundaries, in their order. */
  function FilterWordBounds(t: string, p: string, occ: seq<nat>): (r: seq<nat>)
    requires forall k :: 0 <= k < |occ| ==> occ[k] + |p| <= |t|
    ensures forall i :: i in r <==> i in occ && i + |p| <= |t| && CheckWordBounds(t, i, i + |p|)
    ensures Ascending(occ) ==> Ascending(r)
    ensures forall k :: 0 <= k < |r| ==> r[k] + |p| <= |t|
  {
    if occ == [] then []
    else
      var rest := FilterWordBounds(t, p, occ[1..]);
      if CheckWordBounds(t, occ[0], occ[0] + |p|) then
        assert Ascending(occ) ==> Ascending([occ[0]] + rest) by {
          if Ascending(occ) {
            AscendingConsSubset(occ, rest);
          }
        }
        [occ[0]] + rest
      else rest
  }

  /**
   The matching part of `match_token`, on the token as it is compared. A
   whole-word search in an identifier compares the entire token. Otherwise
   the result is the leftmost non-overlapping occurrences, kept only when
   they stand on word boundaries if whole-word matching is on.
   */
  function MatchFolded(t: string, pattern: string, isId: bool, wholeWord: bool): (r: seq<nat>)
    ensures isId && wholeWord ==> (r == [0] <==> t == pattern)
    ensures isId && wholeWord ==> (r == [] <==> t != pattern)
    ensures !wholeWord ==> LeftmostFrom(t, pattern, 0, r)
    ensures wholeWord && !isId ==> Ascending(r)
    ensures wholeWord && !isId ==>
      forall i :: i in r <==> i in MatchIndices(t, pattern) && i + |pattern| <= |t| && CheckWordBounds(t, i, i + |pattern|)
  {
    if isId && wholeWord then
      (if t == pattern then [0] else [])
    else if wholeWord then WholeWordMatches(t, pattern)
    else
      MatchIndicesLeftmost(t, pattern, 0);
      MatchIndices(t, pattern)
  }

  /**
   `match_token`: the offsets of `pattern` in `token`. Case-insensitive
   matching lowercases the token only; the pattern must already be
   lowercase (a debug assertion in the source).
   */
  function MatchToken(token: string, pattern: string, isId: bool, wholeWord: bool, caseSensitive: bool): (r: seq<nat>)
    requires caseSensitive || pattern == Lower(pattern)
    ensures caseSensitive ==> r == MatchFolded(token, pattern, isId, wholeWord)
    ensures !caseSensitive ==> r == MatchFolded(Lower(token), pattern, isId, wholeWord)
  {
    MatchFolded(if caseSensitive then token else Lower(token), pattern, isId, wholeWord)
  }

  /** A case-insensitive search cannot tell a token from its lowercase form. */
  lemma CaseInsensitiveSeesLowercase(token: string, pattern: string, isId: bool, wholeWord: bool)
    requires pattern == Lower(pattern)
    ensures MatchToken(token, pattern, isId, wholeWord, false)
            == MatchToken(Lower(token), pattern, isId, wholeWord, false)
  {
    LowerIdempotent(token);
  }

  /** The occurrences `match_indices` finds that stand on word boundaries, in order. */
  function WholeWordMatches(t: string, p: string): (r: seq<nat>)
    ensures Ascending(r)
    ensures forall i :: i in r <==> i in MatchIndices(t, p) && i + |p| <= |t| && CheckWordBounds(t, i, i + |p|)
  {
    MatchIndicesFit(t, p);
    FilterWordBounds(t, p, MatchIndices(t, p))
  }

  /** The offsets `match_indices` yields are ascending and each leaves room for the pattern. */
  lemma MatchIndicesFit(t: string, p: string)
    ensures Ascending(MatchIndices(t, p))
    ensures forall k :: 0 <= k < |MatchIndices(t, p)| ==> MatchIndices(t, p)[k] + |p| <= |t|
  {
    MatchIndicesLeftmost(t, p, 0);
    NonOverlappingAscending(p, MatchIndices(t, p));
  }

  /** The number of line feeds in `s`. */
  function NewlineCount(s: string): nat
  {
    if s == [] then 0 else NewlineCount(s[..|s| - 1]) + (if s[|s| - 1] == '\n' then 1 else 0)
  }

  /** The offset of the last line feed in `s`, or -1 if there is none. */
  function LastNewline(s: string): (r: int)
    ensures -1 <= r < |s|
    ensures r >= 0 ==> s[r] == '\n'
    ensures forall j :: r < j < |s| ==> s[j] != '\n'
  {
    if s == [] then -1
    else if s[|s| - 1] == '\n' then |s| - 1
    else LastNewline(s[..|s| - 1])
  }

  /** The characters of `token` that `idx` steps of the character iterator read. */
  function Walked(token: string, idx: nat): string
  {
    if idx <= |token| then token[..idx] else token
  }

  /**
   The column after `idx` steps from column `column0`: `column0 + idx` when no
   line feed was read, otherwise the number of steps taken after the last one.
   */
  function ColumnAfter(token: string, column0: nat, idx: nat): nat
  {
    var last := LastNewline(Walked(token, idx));
    if last < 0 then column0 + idx else idx - 1 - last
  }

  /**
   `get_token_line_col`: steps the character iterator `idx` times, counting
   line feeds and resetting the column after each. Steps past the end of the
   token read nothing and still advance the column, as the source does.
   */
  method GetTokenLineCol(token: string, column0: nat, idx: nat) returns (line: nat, col: nat)
    ensures line == NewlineCount(Walked(token, idx))
    ensures col == ColumnAfter(token, column0, idx)
    ensures idx == 0 ==> line == 0 && col == column0
  {
    line := 0;
    col := column0;
    var i := 0;
    while i < idx
      invariant 0 <= i <= idx
      invariant line == NewlineCount(Walked(token, i))
      invariant col == ColumnAfter(token, column0, i)
    {
      if i < |token| {
        assert Walked(token, i + 1)[..i] == Walked(token, i);
      } else {
        assert Walked(token, i + 1) == Walked(token, i);
      }
      if i < |token| && token[i] == '\n' {
        line := line + 1;
        col := 0;
      } else {
        col := col + 1;
      }
      i := i + 1;
    }
  }

  /** An offset just after a line feed is at column zero. */
  lemma ColumnZeroAfterNewline(token: string, column0: nat, idx: nat)
    requires 0 < idx <= |token| && token[idx - 1] == '\n'
    ensures ColumnAfter(token, column0, idx) == 0
  {
  }

  /** On the token's first line the column is the token's own column plus the offset. */
  lemma ColumnOnFirstLine(token: string, column0: nat, idx: nat)
    requires NewlineCount(Walked(token, idx)) == 0
    ensures ColumnAfter(token, column0, idx) == column0 + idx
  {
    NoNewlineCounted(Walked(token, idx));
  }

  /** A string with no line feeds counted has no line feed at all. */
  lemma {:induction false} NoNewlineCounted(s: string)
    requires NewlineCount(s) == 0
    ensures LastNewline(s) == -1
  {
    if s != [] {
      NoNewlineCounted(s[..|s| - 1]);
    }
  }
}

/** The unit tests of `src/search/word.rs`, restated as facts about the model. */
module WordExamples {
  import Chars
  import opened Word

  lemma WordBoundsExamples()
    ensures CheckWordBounds("test", 0, 4)
    ensures !CheckWordBounds("test", 0, 3)
    ensures !CheckWordBounds("test", 1, 4)
    ensures !CheckWordBounds("test", 1, 3)
    ensures !CheckWordBounds("test", 1, 2)
    ensures !CheckWordBounds("test", 2, 3)
    ensures !CheckWordBounds("test", 2, 2)
    ensures CheckWordBounds("a b c", 2, 3)
    ensures !CheckWordBounds("a b c", 2, 4)
    ensures CheckWordBounds("a b c", 2, 5)
  {
  }

  lemma IdentifierExamples()
    ensures MatchToken("test", "test", false, false, false) == [0]
    ensures MatchToken("test", "test", true, false, false) == [0]
    ensures MatchToken("test", "Test", true, true, true) == []
    ensures MatchToken("Test", "Test", true, true, true) == [0]
  {
    assert Chars.Lower("test") == "test";
    assert OccursAt("test", "test", 0);
    assert MatchIndicesFrom("test", "test", 4) == [];
  }

  /** A differing character rules out an occurrence. */
  lemma Mismatch(t: string, p: string, i: nat, j: nat)
    requires j < |p|
    requires i + |p| <= |t| ==> t[i + j] != p[j]
    ensures !OccursAt(t, p, i)
  {
    if i + |p| <= |t| {
      assert t[i..i + |p|][j] != p[j];
    }
  }

  lemma JustTestingLower()
    ensures Chars.Lower("just testing") == "just testing"
  {
  }

  lemma JustTesting()
    ensures MatchIndices("just testing", "test") == [5]
  {
    var t := "just testing";
    assert OccursAt(t, "test", 5);
    assert MatchIndicesFrom(t, "test", 9) == [];
    Mismatch(t, "test", 0, 0);
    Mismatch(t, "test", 1, 0);
    Mismatch(t, "test", 2, 0);
    Mismatch(t, "test", 3, 1);
    Mismatch(t, "test", 4, 0);
  }

  lemma WholeWordExamples()
    ensures MatchToken("just testing", "test", false, false, false) == [5]
    ensures MatchToken("just testing", "test", false, true, false) == []
  {
    JustTestingLower();
    JustTesting();
    assert !CheckWordBounds("just testing", 5, 9);
  }

  lemma TeyTeTeyLower()
    ensures Chars.Lower("tey te tey") == "tey te tey"
  {
  }

  lemma TeyTeTeyFrom7()
    ensures MatchIndicesFrom("tey te tey", "te", 7) == [7]
  {
    var t := "tey te tey";
    assert OccursAt(t, "te", 7);
    assert MatchIndicesFrom(t, "te", 9) == [];
  }

  lemma TeyTeTeyFrom4()
    ensures MatchIndicesFrom("tey te tey", "te", 4) == [4, 7]
  {
    var t := "tey te tey";
    assert MatchIndicesFrom(t, "te", 6) == [7] by {
      TeyTeTeyFrom7();
      Mismatch(t, "te", 6, 0);
    }
    assert OccursAt(t, "te", 4);
  }

  lemma TeyTeTey()
    ensures MatchIndices("tey te tey", "te") == [0, 4, 7]
  {
    var t := "tey te tey";
    assert MatchIndicesFrom(t, "te", 2) == [4, 7] by {
      TeyTeTeyFrom4();
      Mismatch(t, "te", 3, 0);
      Mismatch(t, "te", 2, 0);
    }
    assert OccursAt(t, "te", 0);
  }

  /** Of the three occurrences of `te` in `tey te tey`, only the middle one is a whole word. */
  lemma TeyTeTeyBounds()
    ensures FilterWordBounds("tey te tey", "te", [0, 4, 7]) == [4]
  {
    var t := "tey te tey";
    assert !CheckWordBounds(t, 7, 9);
    assert CheckWordBounds(t, 4, 6);
    assert !CheckWordBounds(t, 0, 2);
    assert [0, 4, 7][1..] == [4, 7];
    assert [4, 7][1..] == [7];
    assert [7][1..] == [];
  }

  lemma MultipleOccurrenceExamples()
    ensures MatchToken("tey te tey", "te", false, false, false) == [0, 4, 7]
    ensures MatchToken("tey te tey", "te", false, true, false) == [4]
  {
    TeyTeTeyLower();
    TeyTeTey();
    TeyTeTeyBounds();
  }

  lemma TeyCapTeTey()
    ensures MatchIndices("tey Te tey", "Te") == [4]
  {
    var t := "tey Te tey";
    assert OccursAt(t, "Te", 4);
    assert MatchIndicesFrom(t, "Te", 9) == [];
    Mismatch(t, "Te", 8, 0);
    Mismatch(t, "Te", 7, 0);
    Mismatch(t, "Te", 6, 0);
    Mismatch(t, "Te", 0, 0);
    Mismatch(t, "Te", 1, 0);
    Mismatch(t, "Te", 2, 0);
    Mismatch(t, "Te", 3, 0);
  }

  lemma CaseSensitiveExample()
    ensures MatchToken("tey Te tey", "Te", false, false, true) == [4]
  {
    TeyCapTeTey();
  }
}

=== FILE: word_search.dfy ===
/**
 The tree walk of `search_file` in `src/search/word.rs`: which nodes a
 pattern is searched in, and the order in which a work stack visits them.
 */
module WordSearch {
  import opened Wrappers
  import opened Chars
  import opened Config
  import opened Word
  import opened Seqs

  /**
   A syntax-tree node: its kind name, its text as `utf8_text` decodes it
   (`None` when the bytes are not valid UTF-8), and its children in order.
   */
  datatype Node = Node(kind: string, text: Option<string>, children: seq<Node>)

  /** How a node is treated by the walk. */
  datatype Class = Class(isComment: bool, isId: bool, search: bool)

  /**
   The classification of one node: comments are the `block_comment` and
   `line_comment` kinds; identifiers are non-comment leaves when identifier
   search is on; a node is searched when it is an enabled comment, an
   enabled `string_literal`, or an identifier. The contract is this rule
   itself; the lemmas below draw its consequences.
   */
  function Classify(n: Node, kinds: NodeKinds): (c: Class)
    ensures c.isComment <==> n.kind == "block_comment" || n.kind == "line_comment"
    ensures c.isId <==> !c.isComment && |n.children| == 0 && kinds.identifier
    ensures c.search <==> (c.isComment && kinds.comment) || (n.kind == "string_literal" && kinds.stringLiteral) || c.isId
  {
    var isComment := n.kind == "block_comment" || n.kind == "line_comment";
    var search := isComment && kinds.comment;
    var search := search || (n.kind == "string_literal" && kinds.stringLiteral);
    var isId := !isComment && |n.children| == 0 && kinds.identifier;
    Class(isComment, isId, search || isId)
  }

  /** A node with children is never searched as an identifier, and comments never are. */
  lemma IdentifiersAreLeaves(n: Node, kinds: NodeKinds)
    ensures Classify(n, kinds).isId ==> n.children == [] && kinds.identifier
    ensures Classify(n, kinds).isComment ==> !Classify(n, kinds).isId
  {
  }

  /** With no node kind enabled, nothing is searched. */
  lemma NothingEnabledNothingSearched(n: Node)
    ensures !Classify(n, NodeKinds(false, false, false)).search
  {
  }

  /**
   A leaf `string_literal` is an identifier whenever identifier search is on,
   so a whole-word search compares the entire literal with the pattern.
   */
  lemma LeafStringIsIdentifier(text: Option<string>, kinds: NodeKinds)
    requires kinds.identifier
    ensures Classify(Node("string_literal", text, []), kinds).isId
    ensures Classify(Node("string_literal", text, []), kinds).search
  {
  }

  /** The number of nodes in a tree. */
  function Size(n: Node): nat
    decreases n, 1
  {
    1 + SizeAll(n.children)
  }

  /** The number of nodes in a sequence of trees. */
  function SizeAll(s: seq<Node>): nat
    decreases s, 0
  {
    if s == [] then 0 else SizeAll(s[..|s| - 1]) + Size(s[|s| - 1])
  }

  /**
   A searched node whose text does not decode: the walk reports the error and
   moves on without pushing the node's children.
   */
  predicate Pruned(n: Node, kinds: NodeKinds)
  {
    Classify(n, kinds).search && n.text.None?
  }

  /** The children pushed after visiting `n`: none when it is pruned. */
  function Pushed(n: Node, kinds: NodeKinds): seq<Node>
  {
    if Pruned(n, kinds) then [] else n.children
  }

  /** The order in which the work stack visits a tree: the node, then the stack of the children pushed. */
  function VisitOrder(n: Node, kinds: NodeKinds): seq<Node>
    decreases n, 1
  {
    [n] + (if Pruned(n, kinds) then [] else VisitStack(n.children, kinds))
  }

  /** The order in which the work stack `s` (top last) is drained: top subtree first. */
  function VisitStack(s: seq<Node>, kinds: NodeKinds): seq<Node>
    decreases s, 0
  {
    if s == [] then [] else VisitOrder(s[|s| - 1], kinds) + VisitStack(s[..|s| - 1], kinds)
  }

  /** A pruned node is visited alone: nothing below it is searched. */
  lemma PrunedVisitedAlone(n: Node, kinds: NodeKinds)
    requires Classify(n, kinds).search && n.text.None?
    ensures VisitOrder(n, kinds) == [n]
  {
  }

  /** Pushing `t` on top of `s` visits `t` before `s`. */
  lemma {:induction false} VisitStackAppend(s: seq<Node>, t: seq<Node>, kinds: NodeKinds)
    ensures VisitStack(s + t, kinds) == VisitStack(t, kinds) + VisitStack(s, kinds)
    decreases |t|
  {
    if t == [] {
      assert s + t == s;
    } else {
      assert (s + t)[..|s + t| - 1] == s + t[..|t| - 1];
      VisitStackAppend(s, t[..|t| - 1], kinds);
    }
  }

  /** Sizes add up over stacked sequences. */
  lemma {:induction false} SizeAllAppend(s: seq<Node>, t: seq<Node>)
    ensures SizeAll(s + t) == SizeAll(s) + SizeAll(t)
    decreases |t|
  {
    if t == [] {
      assert s + t == s;
    } else {
      assert (s + t)[..|s + t| - 1] == s + t[..|t| - 1];
      SizeAllAppend(s, t[..|t| - 1]);
    }
  }

  /** The matches reported in one token: offsets paired with the node they were found in. */
  datatype Hit = Hit(node: Node, offset: nat)

  /** The hits of one node: its matches if it is searched and its text decodes, otherwise none. */
  function NodeHits(n: Node, pattern: string, caseSensitive: bool, cfg: Cfg): seq<Hit>
    requires caseSensitive || pattern == Lower(pattern)
  {
    var c := Classify(n, cfg.nodeKinds);
    if !c.search then []
    else match n.text
      case None => []
      case Some(token) =>
        var offsets := MatchToken(token, pattern, c.isId, cfg.wholeWord, caseSensitive);
        seq(|offsets|, k requires 0 <= k < |offsets| => Hit(n, offsets[k]))
  }

  /** The hits of a sequence of visited nodes, in visiting order. */
  function HitsOf(visited: seq<Node>, pattern: string, caseSensitive: bool, cfg: Cfg): seq<Hit>
    requires caseSensitive || pattern == Lower(pattern)
  {
    if visited == [] then []
    else HitsOf(visited[..|visited| - 1], pattern, caseSensitive, cfg)
         + NodeHits(visited[|visited| - 1], pattern, caseSensitive, cfg)
  }

  /** Visiting one more node adds its hits at the end. */
  lemma HitsOfSnoc(visited: seq<Node>, n: Node, pattern: string, caseSensitive: bool, cfg: Cfg)
    requires caseSensitive || pattern == Lower(pattern)
    ensures HitsOf(visited + [n], pattern, caseSensitive, cfg)
            == HitsOf(visited, pattern, caseSensitive, cfg) + NodeHits(n, pattern, caseSensitive, cfg)
  {
    assert (visited + [n])[..|visited|] == visited;
  }

  /** Popping the top of the stack and pushing its children keeps the rest of the walk in place. */
  lemma PopPush(work: seq<Node>, kinds: NodeKinds)
    requires work != []
    ensures [work[|work| - 1]] + VisitStack(work[..|work| - 1] + Pushed(work[|work| - 1], kinds), kinds)
            == VisitStack(work, kinds)
  {
    var node := work[|work| - 1];
    var below := work[..|work| - 1];
    VisitStackAppend(below, Pushed(node, kinds), kinds);
    assert VisitOrder(node, kinds) == [node] + VisitStack(Pushed(node, kinds), kinds);
    AppendAssoc([node], VisitStack(Pushed(node, kinds), kinds), VisitStack(below, kinds));
  }

  /** Popping the top of the stack and pushing its children leaves fewer nodes to visit. */
  lemma PopPushShrinks(work: seq<Node>, kinds: NodeKinds)
    requires work != []
    ensures SizeAll(work[..|work| - 1] + Pushed(work[|work| - 1], kinds)) < SizeAll(work)
  {
    var node := work[|work| - 1];
    var below := work[..|work| - 1];
    SizeAllAppend(below, Pushed(node, kinds));
    assert SizeAll(Pushed(node, kinds)) <= SizeAll(node.children);
  }

  /** One turn of the walk: the popped node's hits are added and the children it pushes take its place. */
  lemma SearchStep(root: Node, work: seq<Node>, visited: seq<Node>, hits: seq<Hit>,
                   pattern: string, caseSensitive: bool, cfg: Cfg)
    requires caseSensitive || pattern == Lower(pattern)
    requires work != []
    requires visited + VisitStack(work, cfg.nodeKinds) == VisitOrder(root, cfg.nodeKinds)
    requires hits == HitsOf(visited, pattern, caseSensitive, cfg)
    ensures visited + [work[|work| - 1]]
            + VisitStack(work[..|work| - 1] + Pushed(work[|work| - 1], cfg.nodeKinds), cfg.nodeKinds)
            == VisitOrder(root, cfg.nodeKinds)
    ensures hits + NodeHits(work[|work| - 1], pattern, caseSensitive, cfg)
            == HitsOf(visited + [work[|work| - 1]], pattern, caseSensitive, cfg)
    ensures SizeAll(work[..|work| - 1] + Pushed(work[|work| - 1], cfg.nodeKinds)) < SizeAll(work)
  {
    var node := work[|work| - 1];
    PopPush(work, cfg.nodeKinds);
    PopPushShrinks(work, cfg.nodeKinds);
    AppendAssoc(visited, [node], VisitStack(work[..|work| - 1] + Pushed(node, cfg.nodeKinds), cfg.nodeKinds));
    HitsOfSnoc(visited, node, pattern, caseSensitive, cfg);
  }

  /**
   `search_file`: pops nodes off a work stack starting from the root, reports
   the matches of every searched node whose text decodes, and pushes the
   node's children in order, so later siblings are visited first. A searched
   node whose text does not decode is skipped together with its subtree.
   */
  method SearchFile(root: Node, pattern: string, caseSensitive: bool, cfg: Cfg) returns (hits: seq<Hit>)
    requires caseSensitive || pattern == Lower(pattern)
    ensures hits == HitsOf(VisitOrder(root, cfg.nodeKinds), pattern, caseSensitive, cfg)
  {
    var work := [root];
    hits := [];
    ghost var visited: seq<Node> := [];
    assert VisitStack(work, cfg.nodeKinds) == VisitOrder(root, cfg.nodeKinds) by {
      assert work[..0] == [];
    }
    while work != []
      invariant visited + VisitStack(work, cfg.nodeKinds) == VisitOrder(root, cfg.nodeKinds)
      invariant hits == HitsOf(visited, pattern, caseSensitive, cfg)
      decreases SizeAll(work)
    {
      var node := work[|work| - 1];
      SearchStep(root, work, visited, hits, pattern, caseSensitive, cfg);
      hits := hits + NodeHits(node, pattern, caseSensitive, cfg);
      visited := visited + [node];
      work := work[..|work| - 1] + Pushed(node, cfg.nodeKinds);
    }
    assert visited + VisitStack(work, cfg.nodeKinds) == visited;
  }

  /** The nodes of a tree, counted with multiplicity, collected in document order. */
  function Nodes(n: Node): multiset<Node>
    decreases n, 1
  {
    multiset{n} + NodesAll(n.children)
  }

  /** The nodes of a sequence of trees. */
  function NodesAll(s: seq<Node>): multiset<Node>
    decreases s, 0
  {
    if s == [] then multiset{} else Nodes(s[0]) + NodesAll(s[1..])
  }

  /** `NodesAll` of a concatenation. */
  lemma {:induction false} NodesAllAppend(s: seq<Node>, t: seq<Node>)
    ensures NodesAll(s + t) == NodesAll(s) + NodesAll(t)
    decreases |s|
  {
    if s == [] {
      assert s + t == t;
    } else {
      assert (s + t)[1..] == s[1..] + t;
      NodesAllAppend(s[1..], t);
    }
  }

  /** Every searched node of the tree decodes, so the walk prunes nothing. */
  predicate Decodable(n: Node, kinds: NodeKinds)
    decreases n, 1
  {
    !Pruned(n, kinds) && DecodableAll(n.children, kinds)
  }

  /** Every tree of the sequence is `Decodable`. */
  predicate DecodableAll(s: seq<Node>, kinds: NodeKinds)
    decreases s, 0
  {
    s == [] || (DecodableAll(s[..|s| - 1], kinds) && Decodable(s[|s| - 1], kinds))
  }

  /** When every searched node decodes, the walk visits every node of the tree exactly once. */
  lemma {:induction false} VisitOrderVisitsEachOnce(n: Node, kinds: NodeKinds)
    requires Decodable(n, kinds)
    ensures multiset(VisitOrder(n, kinds)) == Nodes(n)
    decreases n, 1
  {
    VisitStackVisitsEachOnce(n.children, kinds);
  }

  /** `NodesAll` of a stack: the nodes below the top and those of the top. */
  lemma NodesAllSnoc(s: seq<Node>)
    requires s != []
    ensures NodesAll(s) == NodesAll(s[..|s| - 1]) + Nodes(s[|s| - 1])
  {
    var below := s[..|s| - 1];
    var top := s[|s| - 1];
    assert s == below + [top];
    NodesAllAppend(below, [top]);
    assert [top][1..] == [];
  }

  /** Draining a stack of decodable trees visits every node of its trees exactly once. */
  lemma {:induction false} VisitStackVisitsEachOnce(s: seq<Node>, kinds: NodeKinds)
    requires DecodableAll(s, kinds)
    ensures multiset(VisitStack(s, kinds)) == NodesAll(s)
    decreases s, 0
  {
    if s != [] {
      VisitOrderVisitsEachOnce(s[|s| - 1], kinds);
      VisitStackVisitsEachOnce(s[..|s| - 1], kinds);
      NodesAllSnoc(s);
    }
  }

  /** When every searched node decodes, the walk takes one step per node. */
  lemma {:induction false} VisitOrderLength(n: Node, kinds: NodeKinds)
    requires Decodable(n, kinds)
    ensures |VisitOrder(n, kinds)| == Size(n)
    decreases n, 1
  {
    VisitStackLength(n.children, kinds);
  }

  /** Draining a stack of decodable trees takes one step per node of its trees. */
  lemma {:induction false} VisitStackLength(s: seq<Node>, kinds: NodeKinds)
    requires DecodableAll(s, kinds)
    ensures |VisitStack(s, kinds)| == SizeAll(s)
    decreases s, 0
  {
    if s != [] {
      VisitOrderLength(s[|s| - 1], kinds);
      VisitStackLength(s[..|s| - 1], kinds);
    }
  }

  /** A sequence reversed. */
  function Reverse<T>(s: seq<T>): (r: seq<T>)
    ensures |r| == |s|
  {
    if s == [] then [] else [s[|s| - 1]] + Reverse(s[..|s| - 1])
  }

  /** Reversing a concatenation swaps and reverses its parts. */
  lemma {:induction false} ReverseAppend<T>(a: seq<T>, b: seq<T>)
    ensures Reverse(a + b) == Reverse(b) + Reverse(a)
    decreases |b|
  {
    if b == [] {
      assert a + b == a;
    } else {
      assert (a + b)[..|a + b| - 1] == a + b[..|b| - 1];
      ReverseAppend(a, b[..|b| - 1]);
    }
  }

  /** Post-order in document order: children left to right, then the node. */
  function PostOrder(n: Node): seq<Node>
    decreases n, 1
  {
    PostOrderAll(n.children) + [n]
  }

  /** Post-order of a sequence of trees, left to right. */
  function PostOrderAll(s: seq<Node>): seq<Node>
    decreases s, 0
  {
    if s == [] then [] else PostOrderAll(s[..|s| - 1]) + PostOrder(s[|s| - 1])
  }

  /**
   When every searched node decodes, the work-stack walk visits nodes in
   exactly the reverse of document post-order: each node before its
   descendants, later siblings first.
   */
  lemma {:induction false} VisitOrderIsReversedPostOrder(n: Node, kinds: NodeKinds)
    requires Decodable(n, kinds)
    ensures VisitOrder(n, kinds) == Reverse(PostOrder(n))
    decreases n, 1
  {
    VisitStackIsReversedPostOrder(n.children, kinds);
    ReverseAppend(PostOrderAll(n.children), [n]);
  }

  /** Draining a stack of decodable trees visits the reverse of the post-order of its trees. */
  lemma {:induction false} VisitStackIsReversedPostOrder(s: seq<Node>, kinds: NodeKinds)
    requires DecodableAll(s, kinds)
    ensures VisitStack(s, kinds) == Reverse(PostOrderAll(s))
    decreases s, 0
  {
    if s != [] {
      VisitOrderIsReversedPostOrder(s[|s| - 1], kinds);
      VisitStackIsReversedPostOrder(s[..|s| - 1], kinds);
      ReverseAppend(PostOrderAll(s[..|s| - 1]), PostOrder(s[|s| - 1]));
    }
  }
}

=== FILE: wrappers.dfy ===
/** Failure-carrying results shared by the modules of the model. */
module Wrappers {

  /** An optional value: Rust's `Option`. */
  datatype Option<+T> = None | Some(value: T)

  /** A value or an error: Rust's `Result`. */
  datatype Result<+T, +E> = Success(value: T) | Failure(error: E)
}
